=== FILE: README.md ===
# AI-Adventure turn pipeline in Dafny

This project models the turn-continuation pipeline of AI-Adventure, a text adventure
whose story is written by a language model behind a small server-side relay:

- the **client prompt builder** (`generateFullPrompt`) and the **relay's fallback
  builder** turn the play history and the player's action into a prompt;
- the **relay** (`api/gemini-proxy.ts`) dispatches on HTTP method and `mode`, calls
  the model once, finds a brace-delimited JSON candidate in its answer
  (`extractJson`), type-checks `story`, coerces `choices` to exactly three trimmed
  strings, and maps every failure to a status code;
- the **client service** (`services/geminiService.ts`) posts the request, checks and
  coerces the relay's reply a second time, and builds the scenario prompt;
- the **session orchestrator** (`App.tsx`) holds the history, the current story and
  choices, the loading flag, the error and the screen, and changes them through
  explicit begin / complete-success / complete-failure transitions;
- the **input guards** of the action box (`CustomInput`) and the settings screen
  (`Settings`), each paired with the disabled condition of its button.

The model call, `fetch` and `JSON.parse` are parameters of the functions that use
them: the relay's `Handle` takes the model as a function from the call it makes to
what came back, and returns that call alongside the response, so "no model call was
made" is something a contract can say.

Files, one module each: `wrappers.dfy` (Option, Result), `text.dfy` (JavaScript
`trim` over the exact ECMAScript whitespace set, `join`), `json.dfy` (JSON values,
property reads, `String()`), `types.dfy` (`GameTurn`, `GeminiResponse`),
`prompt.dfy`, `normalize.dfy`, `relay.dfy`, `service.dfy`, `inputs.dfy`, `app.dfy`,
and `pipeline.dfy` (how client and relay fit together).

Quirks of the code that the model keeps:

- The relay only type-checks `story`, so an empty story passes.
- The fourth fallback phrase `'Зробити обачну паузу'` can never be padded in by the
  relay, because its three-phrase list always covers the positions to fill.
- Starting a game does not clear the history: a failed opening turn leaves the
  previous history in place. In reachable states the history is still empty at that
  point, because the game screen cannot be left (`App.Invariant`).
- A failing model call is answered with status 500 and the error's message.
- The client pads short choice lists with a single phrase and does not drop
  non-string entries.
- The relay keeps a choice that trims to the empty string; clicked, it becomes an
  empty action, which the relay refuses with 400.
- A posted history turn whose `action` or `story` is an object with its own
  `toString` property (or an array holding one) makes the relay's prompt builder
  throw `TypeError: Cannot convert object to primitive value`. The request is
  answered 500 with that message and the model is not called, unless a usable
  `promptForServer` made the builder unnecessary.

## Model

| member | source | states |
|---|---|---|
| Text.TrimStart | api/gemini-proxy.ts:34 | `trim` drops exactly the leading whitespace: the result is the suffix starting at the first non-whitespace character |
| Text.TrimEnd | api/gemini-proxy.ts:34 | `trim` drops exactly the trailing whitespace: the result is the prefix ending at the last non-whitespace character |
| Text.Trim | api/gemini-proxy.ts:34 | `trim` yields text with no whitespace at either end and never longer than its input; the lemmas below pin it down |
| Text.TrimIsSlice | api/gemini-proxy.ts:34 | trimmed text is the slice of the input between a whitespace prefix and a whitespace suffix |
| Text.TrimEmptyIff | components/CustomInput.tsx:14 | `!s.trim()` holds exactly when every character is whitespace |
| Text.TrimFixesTrimmed | api/gemini-proxy.ts:107 | text with no whitespace at either end is not changed by `trim` |
| Text.TrimIdempotent | services/geminiService.ts:95 | trimming the relay's already trimmed seed text again changes nothing |
| Text.TrimKeepsAbsence | api/gemini-proxy.ts:34 | `trim` introduces no character: one absent from the input is absent from its trim |
| Text.TrimNonEmpty | api/gemini-proxy.ts:73 | text containing a non-whitespace character trims to a non-empty string |
| Text.Join | services/geminiService.ts:7-12 | `join` of no parts is empty, of one part is that part, and otherwise begins with the first part |
| Text.JoinAppend | services/geminiService.ts:7-12 | joining one more part appends the separator and that part |
| Types.TurnJson | services/geminiService.ts:37 | a posted turn exposes its action and story to the relay's `turn?.action` and `turn?.story` reads |
| JsonValue.Get | api/gemini-proxy.ts:48 | a property read yields the value exactly for an object that has the key, and `undefined` otherwise |
| JsonValue.ToJsString | api/gemini-proxy.ts:80 | interpolation prints `undefined` for a missing property and a string as itself; an object prints `[object Object]`, and it throws (`None`) exactly when the object has its own `toString` property |
| JsonValue.ValueToJsStringFailsIff | api/gemini-proxy.ts:80 | converting a value throws exactly when it is an object with its own `toString` property or an array holding one at any depth |
| JsonValue.ItemsToJsStringFailsIff | api/gemini-proxy.ts:80 | joining an array's elements throws exactly when one of them fails to convert |
| Prompt.Template | services/geminiService.ts:14-22 | the prompt opens with the history heading and ends with the action, verbatim, then the fixed instruction and indentation |
| Prompt.GenerateFullPrompt | services/geminiService.ts:6-23 | the client's prompt opens with the heading, and the action sits verbatim just before the fixed instruction |
| Prompt.ClientHistoryEmptyIff | services/geminiService.ts:7-17 | the rendered history is empty exactly when there are no turns, so the placeholder appears exactly then |
| Prompt.EmptyHistoryPrompt | services/geminiService.ts:14-22 | with no turns the history slot holds `'Це початок пригоди.'` |
| Prompt.NonEmptyHistoryPrompt | services/geminiService.ts:14-22 | with turns the history slot holds the rendered turns |
| Prompt.ClientHistorySingle | services/geminiService.ts:7-12 | one turn renders as `Минула дія: {action}\nРезультат: {story}` with no separator |
| Prompt.ClientHistoryAppend | services/geminiService.ts:7-12 | appending a turn appends a blank line and its rendering: turns appear in history order |
| Prompt.ServerTurnText | api/gemini-proxy.ts:79-81 | a turn renders exactly when both its `action` and its `story` convert to strings |
| Prompt.ServerTurnTexts | api/gemini-proxy.ts:77-82 | `history.map` succeeds exactly when every turn renders, and then yields one text per turn, in order |
| Prompt.ServerPrompt | api/gemini-proxy.ts:75-93 | the relay's prompt fails exactly when its history section fails; otherwise it carries the action verbatim just before the fixed instruction |
| Prompt.ServerPromptFailsIff | api/gemini-proxy.ts:76-83 | building the relay's prompt throws exactly when `history` is an array holding a turn whose `action` or `story` cannot be converted to a string |
| Prompt.ServerPlaceholderIff | api/gemini-proxy.ts:76-87 | the relay uses the placeholder exactly when `history` is not an array or is an empty one |
| Prompt.ServerHistoryMatchesClient | api/gemini-proxy.ts:76-83 | for a posted typed history the relay renders, without throwing, the same history section as the client |
| Prompt.ServerPromptMatchesClient | api/gemini-proxy.ts:84-92 | for an array history the two builders agree except for the indentation after the last line |
| Normalize.FirstIndexOf | api/gemini-proxy.ts:38 | the position returned holds the character and none before it does; `None` when it does not occur |
| Normalize.LastIndexOf | api/gemini-proxy.ts:38 | the position returned holds the character and none after it does; `None` when it does not occur |
| Normalize.ExtractBlock | api/gemini-proxy.ts:34-39 | on trimmed text: a candidate exists exactly when a `}` follows a `{`; it opens at the first `{`, closes at the last `}`, and starts and ends with a brace |
| Normalize.ExtractJson | api/gemini-proxy.ts:33-40 | no contract of its own; `ExtractBlock` applied to the trimmed text, stated by the four lemmas below |
| Normalize.ExtractJsonIff | api/gemini-proxy.ts:33-40 | `extractJson` finds a candidate exactly when a `}` follows a `{` in the trimmed text |
| Normalize.ExtractJsonWidest | api/gemini-proxy.ts:33-40 | the candidate runs from the first `{` to the last `}` of the trimmed text, in both branches |
| Normalize.ExtractJsonWhole | api/gemini-proxy.ts:34-35 | trimmed text that starts with `{` and ends with `}` is returned whole |
| Normalize.ExtractJsonNoBrace | api/gemini-proxy.ts:37-39 | text without `{` yields no candidate |
| Normalize.ChoicesArray | api/gemini-proxy.ts:128 | a `choices` array is kept as it is, and anything else becomes empty |
| Normalize.TrimmedStrings | api/gemini-proxy.ts:129 | the filtered list is no longer than the input and every survivor is trimmed |
| Normalize.TrimmedStringsAppend | api/gemini-proxy.ts:129 | filtering works element by element, so relative order is kept |
| Normalize.TrimmedStringsDropsNonString | api/gemini-proxy.ts:129 | a non-string entry is dropped |
| Normalize.TrimmedStringsKeepsString | api/gemini-proxy.ts:129 | a string entry survives, trimmed |
| Normalize.TrimmedStringsAllStrings | api/gemini-proxy.ts:129 | when every entry is a string, each survives in place, trimmed |
| Normalize.PadChoices | api/gemini-proxy.ts:133-136 | the loop stops at three and fills each missing position `k` with `fallbacks[k] \|\| pause`, leaving earlier entries alone |
| Normalize.FitChoices | api/gemini-proxy.ts:131-136 | exactly three choices: the first three survivors in order, then `fallbacks[k]` at each missing position `k` |
| Normalize.PauseNeverPadded | api/gemini-proxy.ts:134-135 | the fourth phrase appears only if the model supplied it among its first three strings |
| Normalize.FitChoicesTrimmed | api/gemini-proxy.ts:129-136 | fitted choices are all trimmed |
| Normalize.NormalizeParsed | api/gemini-proxy.ts:124-139 | a reply exists exactly when `story` is a string, with story trimmed, three trimmed choices |
| Normalize.ReplyJson | api/gemini-proxy.ts:139 | the serialised reply carries the story and the choices as strings |
| Normalize.NormalizedChoices | api/gemini-proxy.ts:128-136 | the reply's choices are the first three surviving strings in order, then fallbacks |
| Normalize.MissingChoicesGiveFallbacks | api/gemini-proxy.ts:128-136 | without a `choices` array the reply carries the three fallback phrases |
| Normalize.FitChoicesFixesThree | api/gemini-proxy.ts:131-136 | three choices are neither cut nor padded |
| Normalize.TrimmedStringsOfTrimmed | api/gemini-proxy.ts:129 | already trimmed strings pass the filter unchanged |
| Normalize.NormalizeFixesNormal | api/gemini-proxy.ts:124-139 | normalising a reply that is already normal returns it unchanged |
| Normalize.NormalizeIdempotent | api/gemini-proxy.ts:124-139 | normalising the serialised result of a normalisation gives the same result |
| Relay.InternalError | api/gemini-proxy.ts:143-146 | a thrown error gives status 500 with its message as the text, or `'Server Error'` when the message is empty |
| Relay.Fields | api/gemini-proxy.ts:48 | `request.body \|\| {}`: a truthy body is read as is; a missing or falsy one reads `undefined` for every property |
| Relay.ContinuationPrompt | api/gemini-proxy.ts:72-93 | no contract of its own; the choice it makes and its failure are stated by `Relay.ContinuationPromptChoice` and `Relay.ConversionFailureIff` |
| Relay.ContinueAnswer | api/gemini-proxy.ts:107-139 | the answer to a model reply is 200 with a normal reply, or 500/502 with a non-empty text |
| Relay.CandidateAnswer | api/gemini-proxy.ts:110-139 | the answer for a JSON candidate is 200 with a normal reply, or 500/502 with a non-empty text |
| Relay.HandleSeed | api/gemini-proxy.ts:51-63 | seed mode answers 400 without a model call exactly when `prompt` is not a non-empty string; otherwise it sends that prompt |
| Relay.HandleContinue | api/gemini-proxy.ts:66-146 | continue mode answers 400 without a model call exactly when `action` is not a non-empty string; a prompt that cannot be built gives the `TypeError`'s 500 without a call; otherwise one call with the chosen prompt and instruction |
| Relay.Handle | api/gemini-proxy.ts:42-147 | non-POST is 405; no model call exactly for 400/405 and for a continuation whose prompt cannot be built, which gets the `TypeError`'s 500; every 200 reply is normal; every error has a non-empty text; a throwing model gives 500 |
| Relay.BadRequestIff | api/gemini-proxy.ts:51-142 | 400 exactly for: seed without a prompt string, continue without an action string, or any other mode |
| Relay.SeedAnswer | api/gemini-proxy.ts:51-62 | a valid seed request sends the prompt and answers 200 with the trimmed text, empty when there is none |
| Relay.ContinuationPromptChoice | api/gemini-proxy.ts:72-93 | the prompt sent is `promptForServer` when it is a string with a non-empty trim, else the relay's own; when that cannot be built there is no call and the answer is the `TypeError`'s 500 |
| Relay.ConversionFailureIff | api/gemini-proxy.ts:72-93 | a valid continuation fails to build its prompt exactly when there is no qualifying `promptForServer` and `history` holds a turn whose `action` or `story` cannot be converted |
| Relay.ContinueAnswerIff | api/gemini-proxy.ts:110-139 | 502 exactly for no candidate, a parse failure or a non-string `story` of a non-null value; otherwise 200 with the normalised reply, or the null-read 500 when the candidate parses to `null` (which the source's `{…}` candidates never do) |
| Service.ContinueRequestBody | services/geminiService.ts:32-43 | the posted body carries mode `continue`, the action, the instruction, the history and the client's prompt |
| Service.NotOkError | services/geminiService.ts:45-48 | a non-ok response raises an error whose message is the body text when there is one, and the fallback text otherwise |
| Service.PadWithPause | services/geminiService.ts:71-73 | padding reaches three entries, keeps the existing ones and adds only `'Зробити обачну паузу'` |
| Service.FitToThree | services/geminiService.ts:68-74 | exactly three entries: the first ones in order, the padding phrase after them |
| Service.FitToThreeSpec | services/geminiService.ts:68-74 | three entries pass untouched; more are cut to the first three; fewer are padded |
| Service.CoerceReply | services/geminiService.ts:59-76 | the reply is accepted exactly when `story` is a string and `choices` an array; the story is kept as is |
| Service.ReceiveContinuation | services/geminiService.ts:45-76 | non-ok raises the body text or the fixed message; an unparsable body raises an error; otherwise the checked reply |
| Service.GetNextStorySegment | services/geminiService.ts:25-77 | resolves with exactly three choices or rejects with an `Error`; answered by the relay, see `Pipeline.ContinuationThroughRelay` |
| Service.ScenarioPrompt | services/geminiService.ts:80-82 | a truthy hint is quoted in the hint template (prefix, hint, closing suffix); an absent or empty hint selects exactly the random template |
| Service.SeedRequestBody | services/geminiService.ts:84-88 | the posted body carries mode `seed` and the chosen prompt |
| Service.ReceiveScenario | services/geminiService.ts:90-95 | success exactly for an ok, readable response, whose text is returned trimmed |
| Service.GenerateInitialScenario | services/geminiService.ts:79-96 | resolves with trimmed text or rejects with an `Error`; answered by the relay, see `Pipeline.ScenarioThroughRelay` |
| Inputs.HandleSubmit | components/CustomInput.tsx:11-17 | submits exactly when the trimmed input is non-empty and the form is enabled; submits the trimmed text and clears the box, otherwise changes nothing |
| Inputs.SubmitDisabled | components/CustomInput.tsx:37 | the submit button is disabled exactly when the submit guard rejects |
| Inputs.OpenSettings | components/Settings.tsx:12-15 | the settings screen opens with the application's current start condition and system instruction, not generating and without an error |
| Inputs.HandleStart | components/Settings.tsx:31-35 | starts exactly when both settings trim to non-empty, passing the trimmed values |
| Inputs.StartDisabled | components/Settings.tsx:100 | the start button is disabled exactly when the start guard rejects |
| Inputs.RandomizeHint | components/Settings.tsx:21 | no hint exactly when the start condition trims to empty; otherwise the start condition untrimmed |
| Inputs.BeginRandomize | components/Settings.tsx:18-19 | generating starts with the error cleared and the settings unchanged |
| Inputs.CompleteRandomize | components/Settings.tsx:22-28 | success replaces the start condition; failure keeps it and shows the message; generation always ends |
| Inputs.RandomizeRoundTrip | components/Settings.tsx:17-29 | a whole randomize: success changes only the start condition and clears the error; failure keeps what starting would do and shows an error; generation always ends |
| App.Init | App.tsx:14-21 | the application starts on the menu with no history, an empty story, no choices, no error and nothing in flight |
| App.Begin | App.tsx:28-29 | a turn starts loading with the error cleared, recording what is in flight and changing nothing else |
| App.CompleteSuccess | App.tsx:34-38 | success appends a turn numbered by the base history's length, shows its story and choices, keeps ids equal to positions |
| App.CompleteFailure | App.tsx:40-47 | failure keeps history, story and choices and shows the error's message or `'An unknown error occurred.'` |
| App.Complete | App.tsx:46-48 | every completion ends loading |
| App.ProcessAction | App.tsx:27-49 | a whole turn: success grows the base history by one turn, shows the response's story and choices and clears the error; failure keeps the history, story and choices and shows the error's message or the unknown-error text |
| App.HandleStartGame | App.tsx:51-56 | starting stores both settings, enters the game and starts a turn on an empty base history without clearing the history |
| App.HandleAction | App.tsx:58-62 | an action is ignored while loading; otherwise a turn starts on the current history with the stored instruction |
| App.Step | App.tsx:64-107 | no contract of its own; the screens, buttons and inputs wired to the handlers, stated by the lemmas below |
| App.ClickChoiceActs | App.tsx:98-105 | clicking a choice on the game screen while idle starts a turn whose action is that choice's text, with the stored instruction and the current history |
| App.InitInvariant | App.tsx:14-21 | the initial state satisfies the invariant |
| App.StepInvariant | App.tsx:27-62 | every event keeps ids equal to positions, loading equal to a request in flight, and that request based on the current history |
| App.StepHistory | App.tsx:34-45 | an event either leaves the history alone or, on success, appends one turn numbered by the old length; failure keeps story and choices |
| App.LoadingBlocksActions | App.tsx:58-62 | while loading, choice clicks and action submits change nothing |
| App.StartGameOutcome | App.tsx:51-56 | starting a game ends on the game screen; success leaves exactly one turn with id 0; failure leaves the old history |
| App.ScreenTransitions | App.tsx:64-82 | the menu and settings screens lead to each other; the game is entered only by starting a game and never left |
| App.RunInvariant | App.tsx:27-62 | the invariant holds after any sequence of events |
| App.RunHistoryGrows | App.tsx:34-35 | over any run the old history stays a prefix of the new one |
| App.ReachableIds | App.tsx:34 | in every reachable state each turn's id is its position |
| Pipeline.ClientPromptNotBlank | api/gemini-proxy.ts:72-74 | the client's prompt always has a non-empty trim, so the relay always uses it |
| Pipeline.ContinuationReachesModel | services/geminiService.ts:32-43 | a posted continuation with a non-empty action sends exactly the client's prompt and instruction to the model; an empty action gets 400 |
| Pipeline.ScenarioReachesModel | services/geminiService.ts:84-88 | a posted scenario request is never refused and sends the chosen prompt |
| Pipeline.RelayReplyAccepted | services/geminiService.ts:59-76 | the client accepts every relay reply, with its story and three string choices unchanged |
| Pipeline.ContinuationRoundTrip | services/geminiService.ts:51-76 | a relay 200 reply parsed back by the client resolves to that reply |
| Pipeline.ClientReadsRelay | services/geminiService.ts:45-76 | for every answer shape the relay can give, the client resolves with a 200 reply as is and rejects with an error's text |
| Pipeline.ContinuationAnswerShape | api/gemini-proxy.ts:66-140 | a 200 answer to the client's continuation is always a JSON reply, never plain text |
| Pipeline.ContinuationThroughRelay | services/geminiService.ts:25-77 | `getNextStorySegment` answered by the relay resolves with the relay's 200 reply, story and three choices unchanged, or rejects with the relay's error text |
| Pipeline.ScenarioThroughRelay | services/geminiService.ts:79-96 | `generateInitialScenario` answered by the relay resolves with exactly the relay's 200 text, or rejects with the relay's error text |
| Pipeline.RelayErrorSurfaces | services/geminiService.ts:45-48 | every relay error carries a non-empty text, which becomes the client's error message |
| Pipeline.ScenarioRoundTrip | services/geminiService.ts:95 | the relay's trimmed scenario survives the client's second trim |
| Pipeline.RandomizePromptChoice | components/Settings.tsx:21-22 | the settings screen asks for a random scenario exactly when its start condition is blank; otherwise it quotes that condition |
| Pipeline.EmptyChoiceIsRefused | App.tsx:98-107 | clicking an empty choice starts a turn with the action `""`, and the relay answers that request 400 without a model call |
| Pipeline.BlankChoiceKept | api/gemini-proxy.ts:128-136 | a whitespace-only string among the first three entries of an all-string `choices` array is kept, in its place, as an empty choice |

## Left out

- The Gemini SDK call, `fetch` and the Vercel request and response objects: they are
  parameters or oracle values (`ModelOutcome`, `FetchOutcome`).
- The module-load check of `GEMINI_API_KEY` (api/gemini-proxy.ts:5-8): environment I/O.
- The response schema, the model name and the sampling parameters
  (api/gemini-proxy.ts:11-30, 59, 100-104): library configuration and floating point.
  The call records only the prompt and the system instruction.
- `JSON.parse` and `JSON.stringify` as text grammars: parsing is a parameter
  `string -> Option<Json>`, and serialising a value on one side and parsing it on the
  other is taken to deliver the same value (`Pipeline.ContinuationThroughRelay` takes
  this as a precondition on `parse` and `serialize`).
- JSON numbers are integers only. `String(n)` is modelled digit by digit
  (`JsonValue.NumberToString`), without the exponent form JavaScript switches to from
  1e21 and without the precision lost beyond 2^53.
- Strings are sequences of Unicode scalar values, not UTF-16 code units; surrogate
  pairs and lone surrogates are not modelled.
- The regular-expression engine: `extractJson`'s match is stated by indices
  (first `{`, last `}`).
- Logging (`console.error`).
- React rendering, hooks and asynchronous timing: events are applied one at a time,
  and at most one turn request is in flight. Stale closures and interleaved promises
  are not modelled.
- App.Step: a click on a choice that is not a string does nothing in the model. In the
  code the value reaches `handleAction` unconverted. Choices coming from this relay are
  always strings (`Pipeline.RelayReplyAccepted`).
- The settings screen's text edits (`onChange`) are not events: the form's contents
  are an input of `Inputs.HandleStart` and of the `SaveAndStart` event. The
  randomize button's `disabled={isGenerating}` is not modelled; `handleRandomize`
  has no guard of its own.
- The `systemInstruction` default parameter of `getNextStorySegment`: the application
  always passes one.
- `StoryDisplay`'s timed text reveal, and the markup-only `HistorySidebar`,
  `MainMenu`, `ChoiceButton` and `Loader`.
- Relay.Handle: reading `parsed.story` when the candidate parses to `null` is modelled
  as status 500 with V8's `TypeError` message. A JSON text that starts with `{` cannot
  parse to `null`, so this branch is for completeness only.

=== FILE: app.dfy ===
/** The session orchestrator (App.tsx): the game state, `processAction` split into
    its begin and completion steps, `handleAction`, `handleStartGame` and the screen
    changes, as transitions of one state record. The arguments an in-flight
    `processAction` captured are kept in `pending` until it settles. */
module App {
  import opened Wrappers
  import opened JsonValue
  import opened Types
  import opened Service
  import opened Inputs

  const InitialStartCondition: string :=
    "Ви прокидаєтесь у сирій, темній камері. Єдине джерело світла - невелике заґратоване вікно високо на стіні."
  /** The message shown when a turn rejects with a non-`Error`. */
  const UnknownError: string := "An unknown error occurred."

  datatype Screen = Menu | SettingsScreen | Game

  /** The action, system instruction and base history of the request in flight. */
  datatype PendingTurn = PendingTurn(action: string, systemInstruction: string, base: seq<GameTurn>)

  datatype AppState = AppState(
    history: seq<GameTurn>,
    currentStory: string,
    choices: seq<Json>,
    isLoading: bool,
    error: Option<string>,
    screen: Screen,
    startCondition: string,
    systemInstruction: string,
    pending: Option<PendingTurn>)

  /** The state the application mounts with. */
  function Init(): (s: AppState)
    ensures s.history == [] && s.screen == Menu && !s.isLoading && s.pending.None?
    ensures s.currentStory == "" && s.choices == [] && s.error.None?
  {
    AppState([], "", [], false, None, Menu, InitialStartCondition, DefaultSystemInstruction, None)
  }

  /** `processAction` up to the request: loading, error cleared. */
  function Begin(s: AppState, action: string, systemInstruction: string, base: seq<GameTurn>): (r: AppState)
    ensures r.isLoading && r.error.None?
    ensures r.pending == Some(PendingTurn(action, systemInstruction, base))
    ensures r.history == s.history && r.currentStory == s.currentStory && r.choices == s.choices
    ensures r.screen == s.screen
    ensures r.startCondition == s.startCondition && r.systemInstruction == s.systemInstruction
  {
    s.(isLoading := true, error := None, pending := Some(PendingTurn(action, systemInstruction, base)))
  }

  /** The request resolved: a turn numbered by the base history's length is
      appended to it, and the story and choices are shown. */
  function CompleteSuccess(s: AppState, response: GeminiResponse): (r: AppState)
    requires s.pending.Some?
    ensures var p := s.pending.value;
      && r.history == p.base + [GameTurn(|p.base|, p.action, response.story)]
      && (IdsArePositions(p.base) ==> IdsArePositions(r.history))
    ensures r.currentStory == response.story && r.choices == response.choices
    ensures !r.isLoading && r.pending.None? && r.error == s.error
    ensures r.screen == s.screen
    ensures r.startCondition == s.startCondition && r.systemInstruction == s.systemInstruction
  {
    var p := s.pending.value;
    var turn := GameTurn(|p.base|, p.action, response.story);
    s.(history := p.base + [turn], currentStory := response.story, choices := response.choices,
       isLoading := false, pending := None)
  }

  /** The request rejected: history, story and choices stay; the error's message
      (or the fixed text for a non-`Error`) is shown. */
  function CompleteFailure(s: AppState, thrown: Thrown): (r: AppState)
    requires s.pending.Some?
    ensures r.history == s.history && r.currentStory == s.currentStory && r.choices == s.choices
    ensures r.error == Some(if thrown.ErrorValue? then thrown.message else UnknownError)
    ensures !r.isLoading && r.pending.None?
    ensures r.screen == s.screen
    ensures r.startCondition == s.startCondition && r.systemInstruction == s.systemInstruction
  {
    var message := if thrown.ErrorValue? then thrown.message else UnknownError;
    s.(error := Some(message), isLoading := false, pending := None)
  }

  function Complete(s: AppState, outcome: Result<GeminiResponse, Thrown>): (r: AppState)
    requires s.pending.Some?
    ensures !r.isLoading && r.pending.None?
  {
    match outcome
    case Success(response) => CompleteSuccess(s, response)
    case Failure(thrown) => CompleteFailure(s, thrown)
  }

  /** `processAction(action, systemInstruction, base)` run to completion. */
  function ProcessAction(s: AppState, action: string, systemInstruction: string, base: seq<GameTurn>,
                         outcome: Result<GeminiResponse, Thrown>): (r: AppState)
    ensures !r.isLoading && r.pending.None?
    ensures outcome.Success? ==> r.history == base + [GameTurn(|base|, action, outcome.value.story)]
    ensures outcome.Success? ==> r.currentStory == outcome.value.story && r.choices == outcome.value.choices
    ensures outcome.Success? ==> r.error.None?
    ensures outcome.Failure? ==> r.history == s.history && r.currentStory == s.currentStory && r.choices == s.choices
    ensures outcome.Failure? ==> r.error == Some(if outcome.error.ErrorValue? then outcome.error.message else UnknownError)
  {
    Complete(Begin(s, action, systemInstruction, base), outcome)
  }

  /** `handleStartGame(settings)`: stores both settings, enters the game, and
      starts the opening turn against an empty history. History is not cleared. */
  function HandleStartGame(s: AppState, config: GameConfig): (r: AppState)
    ensures r.startCondition == config.startCondition
    ensures r.systemInstruction == config.systemInstruction
    ensures r.screen == Game
    ensures r.pending == Some(PendingTurn(config.startCondition, config.systemInstruction, []))
    ensures r.history == s.history
  {
    var entered := s.(startCondition := config.startCondition,
                      systemInstruction := config.systemInstruction, screen := Game);
    Begin(entered, config.startCondition, config.systemInstruction, [])
  }

  /** `handleAction(action)`: ignored while a request is in flight; otherwise starts
      one with the stored system instruction against the current history. */
  function HandleAction(s: AppState, action: string): (r: AppState)
    ensures s.isLoading ==> r == s
    ensures !s.isLoading ==> r.pending == Some(PendingTurn(action, s.systemInstruction, s.history))
    ensures !s.isLoading ==> r.isLoading && r.error.None?
    ensures r.history == s.history
  {
    if s.isLoading then s else Begin(s, action, s.systemInstruction, s.history)
  }

  /** What can happen to the application: the screen buttons, a click on a choice, a
      submit of the action box, and the in-flight request settling. */
  datatype Event =
    | GoToSettings
    | BackToMenu
    | StartFromMenu
    | SaveAndStart(form: SettingsForm)
    | ClickChoice(index: nat)
    | SubmitInput(input: string)
    | Settle(outcome: Result<GeminiResponse, Thrown>)

  /** One event. Buttons exist only on their own screen, so an event from another
      screen changes nothing, and a settle with nothing in flight changes nothing. */
  function Step(s: AppState, e: Event): AppState {
    match e
    case GoToSettings => if s.screen == Menu then s.(screen := SettingsScreen) else s
    case BackToMenu => if s.screen == SettingsScreen then s.(screen := Menu) else s
    case StartFromMenu =>
      if s.screen == Menu then HandleStartGame(s, GameConfig(s.startCondition, s.systemInstruction)) else s
    case SaveAndStart(form) =>
      if s.screen == SettingsScreen && HandleStart(form).Some? then HandleStartGame(s, HandleStart(form).value)
      else s
    case ClickChoice(i) =>
      if s.screen == Game && i < |s.choices| && s.choices[i].JStr? then HandleAction(s, s.choices[i].s)
      else s
    case SubmitInput(input) =>
      var submit := HandleSubmit(input, s.isLoading);
      if s.screen == Game && submit.submitted.Some? then HandleAction(s, submit.submitted.value) else s
    case Settle(outcome) =>
      if s.pending.Some? then Complete(s, outcome) else s
  }

  /** Clicking a choice on the game screen sends that choice's text, unchanged, as
      the action, with the stored system instruction and the current history. */
  lemma ClickChoiceActs(s: AppState, i: nat)
    requires s.screen == Game && !s.isLoading
    requires i < |s.choices| && s.choices[i].JStr?
    ensures Step(s, ClickChoice(i)).pending == Some(PendingTurn(s.choices[i].s, s.systemInstruction, s.history))
    ensures Step(s, ClickChoice(i)).isLoading
  {
  }

  /** A sequence of events, in order. */
  function Run(s: AppState, events: seq<Event>): AppState
    decreases |events|
  {
    if |events| == 0 then s else Run(Step(s, events[0]), events[1..])
  }

  /** What every reachable state satisfies: turn ids are positions; loading means a
      request is in flight, and that request extends the current history; before
      the game starts there is no history and nothing in flight. */
  predicate Invariant(s: AppState) {
    && IdsArePositions(s.history)
    && (s.isLoading <==> s.pending.Some?)
    && (s.pending.Some? ==> s.pending.value.base == s.history)
    && (s.screen != Game ==> s.pending.None? && s.history == [])
  }

  lemma InitInvariant()
    ensures Invariant(Init())
  {
  }

  /** Every event keeps the invariant. */
  lemma StepInvariant(s: AppState, e: Event)
    requires Invariant(s)
    ensures Invariant(Step(s, e))
  {
    match e
    case Settle(outcome) =>
      if s.pending.Some? && outcome.Success? {
        assert IdsArePositions(s.pending.value.base);
      }
    case _ =>
  }

  /** From a state that satisfies the invariant, each event either leaves the history
      alone or, when a request succeeds, appends exactly one turn numbered by the
      old length; a failed request changes neither history, story nor choices. */
  lemma StepHistory(s: AppState, e: Event)
    requires Invariant(s)
    ensures var r := Step(s, e);
      || r.history == s.history
      || (&& e.Settle? && e.outcome.Success? && s.pending.Some?
          && r.history == s.history + [GameTurn(|s.history|, s.pending.value.action, e.outcome.value.story)])
    ensures e.Settle? && e.outcome.Failure? ==>
      var r := Step(s, e);
      r.history == s.history && r.currentStory == s.currentStory && r.choices == s.choices
  {
  }

  /** While a request is in flight, choices and submitted actions are ignored. */
  lemma LoadingBlocksActions(s: AppState, e: Event)
    requires s.isLoading
    requires e.ClickChoice? || e.SubmitInput?
    ensures Step(s, e) == s
  {
  }

  /** `handleStartGame` run to completion: the settings are stored and the game
      entered; success leaves exactly one turn, numbered 0, whose action is the start
      condition; failure leaves the previous history in place. */
  lemma StartGameOutcome(s: AppState, config: GameConfig, outcome: Result<GeminiResponse, Thrown>)
    ensures var r := Complete(HandleStartGame(s, config), outcome);
      && r.screen == Game && !r.isLoading
      && r.startCondition == config.startCondition && r.systemInstruction == config.systemInstruction
      && (outcome.Success? ==> r.history == [GameTurn(0, config.startCondition, outcome.value.story)])
      && (outcome.Failure? ==> r.history == s.history)
  {
  }

  /** Screens: the menu and the settings screen lead to each other; the game is
      entered only by starting a game, and is never left. */
  lemma ScreenTransitions(s: AppState, e: Event)
    ensures var r := Step(s, e);
      && (s.screen == Game ==> r.screen == Game)
      && (r.screen == Game && s.screen != Game ==> e.StartFromMenu? || e.SaveAndStart?)
      && (r.screen == SettingsScreen && s.screen != SettingsScreen ==> s.screen == Menu && e.GoToSettings?)
      && (r.screen == Menu && s.screen != Menu ==> s.screen == SettingsScreen && e.BackToMenu?)
  {
  }

  /** The invariant holds after any sequence of events. */
  lemma {:induction false} RunInvariant(s: AppState, events: seq<Event>)
    requires Invariant(s)
    ensures Invariant(Run(s, events))
    decreases |events|
  {
    if |events| > 0 {
      StepInvariant(s, events[0]);
      RunInvariant(Step(s, events[0]), events[1..]);
    }
  }

  /** History is append-only over any run from a state that satisfies the
      invariant: turns once recorded are never changed or dropped. */
  lemma {:induction false} RunHistoryGrows(s: AppState, events: seq<Event>)
    requires Invariant(s)
    ensures s.history <= Run(s, events).history
    decreases |events|
  {
    if |events| > 0 {
      var next := Step(s, events[0]);
      StepHistory(s, events[0]);
      StepInvariant(s, events[0]);
      RunHistoryGrows(next, events[1..]);
    }
  }

  /** Every reachable state keeps turn ids equal to positions. */
  lemma ReachableIds(events: seq<Event>)
    ensures IdsArePositions(Run(Init(), events).history)
  {
    RunInvariant(Init(), events);
  }
}

=== FILE: inputs.dfy ===
/** The two input forms that feed the game: the free-text action box
    (components/CustomInput.tsx) and the settings screen
    (components/Settings.tsx). Each guard is paired with the disabled condition of
    the button that triggers it. */
module Inputs {
  import opened Wrappers
  import opened Text
  import opened Types

  // ---------------------------------------------------------------------------
  // CustomInput

  /** The input box after a submit attempt, and the action passed to `onSubmit`
      (`None` when it was not called). */
  datatype SubmitResult = SubmitResult(input: string, submitted: Option<string>)

  /** `handleSubmit`: submits the trimmed text and clears the box, provided the
      trimmed text is non-empty and the form is not disabled; otherwise nothing
      happens. */
  function HandleSubmit(input: string, disabled: bool): (r: SubmitResult)
    ensures r.submitted.Some? <==> Trim(input) != "" && !disabled
    ensures r.submitted.Some? ==> r.submitted.value == Trim(input) && r.input == ""
    ensures r.submitted.Some? ==> r.submitted.value != "" && IsTrimmed(r.submitted.value)
    ensures r.submitted.None? ==> r.input == input
  {
    if Trim(input) != "" && !disabled then SubmitResult("", Some(Trim(input)))
    else SubmitResult(input, None)
  }

  /** The submit button's `disabled` attribute. */
  function SubmitDisabled(input: string, disabled: bool): (d: bool)
    ensures d <==> HandleSubmit(input, disabled).submitted.None?
  {
    disabled || Trim(input) == ""
  }

  // ---------------------------------------------------------------------------
  // Settings

  /** The settings screen's local state. */
  datatype SettingsForm = SettingsForm(
    startCondition: string,
    systemInstruction: string,
    isGenerating: bool,
    error: Option<string>)

  /** The message shown when the scenario request rejects with a non-`Error`. */
  const UnknownSettingsError: string := "An unknown error occurred"

  /** The form as the screen opens, from the application's current settings. */
  function OpenSettings(startCondition: string, systemInstruction: string): (f: SettingsForm)
    ensures f.startCondition == startCondition && f.systemInstruction == systemInstruction
    ensures !f.isGenerating && f.error.None?
  {
    SettingsForm(startCondition, systemInstruction, false, None)
  }

  /** `handleStart`: passes both settings, trimmed, when neither trims to empty. */
  function HandleStart(f: SettingsForm): (r: Option<GameConfig>)
    ensures r.Some? <==> Trim(f.startCondition) != "" && Trim(f.systemInstruction) != ""
    ensures r.Some? ==> r.value == GameConfig(Trim(f.startCondition), Trim(f.systemInstruction))
  {
    if Trim(f.startCondition) != "" && Trim(f.systemInstruction) != "" then
      Some(GameConfig(Trim(f.startCondition), Trim(f.systemInstruction)))
    else None
  }

  /** The start button's `disabled` attribute: the negation of the guard. */
  function StartDisabled(f: SettingsForm): (d: bool)
    ensures d <==> HandleStart(f).None?
  {
    Trim(f.startCondition) == "" || Trim(f.systemInstruction) == ""
  }

  /** The hint `handleRandomize` passes on: undefined when the start condition trims
      to empty, otherwise the start condition as typed (untrimmed). */
  function RandomizeHint(f: SettingsForm): (h: Option<string>)
    ensures h.None? <==> Trim(f.startCondition) == ""
    ensures h.Some? ==> h.value == f.startCondition && h.value != ""
  {
    if Trim(f.startCondition) != "" then Some(f.startCondition) else None
  }

  /** `handleRandomize` up to the request: generating, with the error cleared. */
  function BeginRandomize(f: SettingsForm): (r: SettingsForm)
    ensures r.isGenerating && r.error.None?
    ensures r.startCondition == f.startCondition && r.systemInstruction == f.systemInstruction
  {
    f.(isGenerating := true, error := None)
  }

  /** `handleRandomize` once the request settles: the scenario replaces the start
      condition, or the start condition stays and the error is shown; either way
      generation ends. */
  function CompleteRandomize(f: SettingsForm, outcome: Result<string, Thrown>): (r: SettingsForm)
    ensures !r.isGenerating
    ensures r.systemInstruction == f.systemInstruction
    ensures outcome.Success? ==> r.startCondition == outcome.value && r.error == f.error
    ensures outcome.Failure? ==> r.startCondition == f.startCondition && r.error.Some?
    ensures outcome.Failure? && outcome.error.ErrorValue? ==> r.error == Some(outcome.error.message)
    ensures outcome.Failure? && outcome.error.OtherValue? ==> r.error == Some(UnknownSettingsError)
  {
    match outcome
    case Success(scenario) => f.(startCondition := scenario, isGenerating := false)
    case Failure(thrown) =>
      var message := if thrown.ErrorValue? then thrown.message else UnknownSettingsError;
      f.(error := Some(message), isGenerating := false)
  }

  /** A whole `handleRandomize`: success leaves the form as it was but for the new
      start condition and a cleared error; failure leaves what `Start` would do
      unchanged and shows an error. Either way generation has ended. */
  lemma RandomizeRoundTrip(f: SettingsForm, outcome: Result<string, Thrown>)
    ensures var r := CompleteRandomize(BeginRandomize(f), outcome);
      && !r.isGenerating
      && (outcome.Success? ==> r == f.(startCondition := outcome.value, isGenerating := false, error := None))
      && (outcome.Failure? ==> HandleStart(r) == HandleStart(f) && r.error.Some?)
  {
  }
}

=== FILE: json.dfy ===
/** The JSON values that cross the relay's boundary, and the two JavaScript
    operations the source applies to them without a schema: reading a property and
    converting a value to a string inside a template literal. */
module JsonValue {
  import opened Wrappers

  /** A parsed JSON value. Numbers are integers only; an object maps each key to
      the value `JSON.parse` keeps for it. */
  datatype Json =
    | JNull
    | JBool(b: bool)
    | JNum(n: int)
    | JStr(s: string)
    | JArr(items: seq<Json>)
    | JObj(fields: map<string, Json>)

  /** The value of `v?.key`; `None` is `undefined`. Only objects carry the keys the
      source reads: on arrays, strings, numbers and booleans those reads give
      `undefined`, and optional chaining gives `undefined` on `null` too. */
  function Get(v: Json, key: string): (r: Option<Json>)
    ensures r.Some? <==> v.JObj? && key in v.fields
    ensures r.Some? ==> r.value == v.fields[key]
  {
    if v.JObj? && key in v.fields then Some(v.fields[key]) else None
  }

  /** JavaScript truthiness: `null`, `false`, `0` and `""` are falsy. */
  predicate Truthy(v: Json) {
    match v
    case JNull => false
    case JBool(b) => b
    case JNum(n) => n != 0
    case JStr(s) => s != ""
    case JArr(_) => true
    case JObj(_) => true
  }

  /** `v` is a string with at least one character: the test `!x || typeof x !== 'string'`
      fails exactly on these. */
  predicate IsNonEmptyString(v: Option<Json>) {
    v.Some? && v.value.JStr? && v.value.s != ""
  }

  function DigitChar(d: nat): char
    requires d < 10
  {
    "0123456789"[d]
  }

  function NatToDecimal(n: nat): (r: string)
    ensures |r| > 0
  {
    if n < 10 then [DigitChar(n)] else NatToDecimal(n / 10) + [DigitChar(n % 10)]
  }

  /** `String(n)` for an integer `n`. */
  function NumberToString(n: int): string {
    if n < 0 then "-" + NatToDecimal(-n) else NatToDecimal(n)
  }

  /** `j` cannot be converted to a string: an object with its own `toString` key
      (its value, coming from JSON, is not callable, and `valueOf` yields the object
      itself, so the conversion throws a `TypeError`), or an array holding such a
      value at any depth, since an array converts by converting its elements. */
  ghost predicate HasToStringKey(j: Json)
    decreases j
  {
    match j
    case JObj(fields) => "toString" in fields
    case JArr(items) => exists k :: 0 <= k < |items| && HasToStringKey(items[k])
    case _ => false
  }

  /** `String(v)` as a template literal applies it: `undefined` and `null` print
      their names, an array prints its elements joined by commas (with `null`
      elements empty), and an object prints `[object Object]`. `None` is the
      `TypeError` thrown for a value that cannot be converted. */
  function ToJsString(v: Option<Json>): (r: Option<string>)
    ensures v.None? ==> r == Some("undefined")
    ensures v.Some? && v.value.JStr? ==> r == Some(v.value.s)
    ensures v.Some? && v.value.JObj? ==> (r.None? <==> "toString" in v.value.fields)
    ensures v.Some? && v.value.JObj? && r.Some? ==> r.value == "[object Object]"
  {
    match v
    case None => Some("undefined")
    case Some(j) => ValueToJsString(j)
  }

  function ValueToJsString(j: Json): Option<string>
    decreases j
  {
    match j
    case JNull => Some("null")
    case JBool(b) => Some(if b then "true" else "false")
    case JNum(n) => Some(NumberToString(n))
    case JStr(s) => Some(s)
    case JArr(items) => ItemsToJsString(items)
    case JObj(fields) => if "toString" in fields then None else Some("[object Object]")
  }

  /** `items.join(',')`, converting each element; the first element that cannot be
      converted makes the whole conversion throw. */
  function ItemsToJsString(items: seq<Json>): Option<string>
    decreases items
  {
    if |items| == 0 then Some("")
    else
      var head := if items[0].JNull? then Some("") else ValueToJsString(items[0]);
      if head.None? then None
      else if |items| == 1 then head
      else match ItemsToJsString(items[1..])
        case None => None
        case Some(rest) => Some(head.value + "," + rest)
  }

  /** Conversion throws exactly for the values `HasToStringKey` describes. */
  lemma {:induction false} ValueToJsStringFailsIff(j: Json)
    ensures ValueToJsString(j).None? <==> HasToStringKey(j)
    decreases j, 1
  {
    match j
    case JArr(items) => ItemsToJsStringFailsIff(items);
    case _ =>
  }

  /** An array's conversion throws exactly when one of its elements' does. */
  lemma {:induction false} ItemsToJsStringFailsIff(items: seq<Json>)
    ensures ItemsToJsString(items).None? <==> exists k :: 0 <= k < |items| && HasToStringKey(items[k])
    decreases items, 0
  {
    if |items| > 0 {
      ValueToJsStringFailsIff(items[0]);
      ItemsToJsStringFailsIff(items[1..]);
      if exists k :: 0 <= k < |items[1..]| && HasToStringKey(items[1..][k]) {
        var k :| 0 <= k < |items[1..]| && HasToStringKey(items[1..][k]);
        assert HasToStringKey(items[k + 1]);
      }
      if exists k :: 0 <= k < |items| && HasToStringKey(items[k]) {
        var k :| 0 <= k < |items| && HasToStringKey(items[k]);
        if k > 0 {
          assert HasToStringKey(items[1..][k - 1]);
        }
      }
    }
  }

  /** The array of strings `JSON.parse` yields for a serialised `string[]`. */
  function Strings(ss: seq<string>): (r: seq<Json>)
    ensures |r| == |ss|
    ensures forall i :: 0 <= i < |ss| ==> r[i] == JStr(ss[i])
  {
    seq(|ss|, i requires 0 <= i < |ss| => JStr(ss[i]))
  }
}

=== FILE: normalize.dfy ===
/** The relay's treatment of the model's raw answer (api/gemini-proxy.ts): locate a
    brace-delimited JSON candidate (`extractJson`), then type-check `story` and
    coerce `choices` to exactly three trimmed strings. */
module Normalize {
  import opened Wrappers
  import opened Text
  import opened JsonValue

  // ---------------------------------------------------------------------------
  // extractJson

  function FirstIndexOf(s: string, c: char): (r: Option<nat>)
    ensures r.Some? ==> r.value < |s| && s[r.value] == c
    ensures r.Some? ==> forall k :: 0 <= k < r.value ==> s[k] != c
    ensures r.None? ==> forall k :: 0 <= k < |s| ==> s[k] != c
  {
    if |s| == 0 then None
    else if s[0] == c then Some(0)
    else match FirstIndexOf(s[1..], c)
      case None => None
      case Some(i) => Some(i + 1)
  }

  function LastIndexOf(s: string, c: char): (r: Option<nat>)
    ensures r.Some? ==> r.value < |s| && s[r.value] == c
    ensures r.Some? ==> forall k :: r.value < k < |s| ==> s[k] != c
    ensures r.None? ==> forall k :: 0 <= k < |s| ==> s[k] != c
  {
    if |s| == 0 then None
    else if s[|s| - 1] == c then Some(|s| - 1)
    else LastIndexOf(s[..|s| - 1], c)
  }

  /** `t[i..j+1]` is what `/\{[\s\S]*\}/` matches in `t`: it opens at the first `{`
      and, the star being greedy, closes at the last `}`, which lies after it. */
  ghost predicate WidestBlock(t: string, i: int, j: int) {
    && 0 <= i < j < |t|
    && t[i] == '{' && t[j] == '}'
    && (forall k :: 0 <= k < i ==> t[k] != '{')
    && (forall k :: j < k < |t| ==> t[k] != '}')
  }

  /** Some `{` precedes some `}` exactly when the first `{` precedes the last `}`. */
  lemma BlockIffIndices(t: string)
    ensures (exists i, j :: 0 <= i < j < |t| && t[i] == '{' && t[j] == '}') <==>
      (FirstIndexOf(t, '{').Some? && LastIndexOf(t, '}').Some? &&
       FirstIndexOf(t, '{').value < LastIndexOf(t, '}').value)
  {
    var open := FirstIndexOf(t, '{');
    var close := LastIndexOf(t, '}');
    if exists i, j :: 0 <= i < j < |t| && t[i] == '{' && t[j] == '}' {
      var i, j :| 0 <= i < j < |t| && t[i] == '{' && t[j] == '}';
      assert open.Some? && open.value <= i;
      assert close.Some? && j <= close.value;
    }
  }

  /** The block `extractJson` finds in its trimmed text `t`. */
  function ExtractBlock(t: string): (r: Option<string>)
    ensures r.Some? <==> exists i, j :: 0 <= i < j < |t| && t[i] == '{' && t[j] == '}'
    ensures r.Some? ==> exists i, j :: WidestBlock(t, i, j) && r.value == t[i..j + 1]
    ensures r.Some? ==> 2 <= |r.value| && r.value[0] == '{' && r.value[|r.value| - 1] == '}'
  {
    if |t| > 0 && t[0] == '{' && t[|t| - 1] == '}' then
      assert 0 < |t| - 1 && t[0] == '{' && t[|t| - 1] == '}';
      assert WidestBlock(t, 0, |t| - 1) && t == t[0..|t| - 1 + 1];
      Some(t)
    else
      var open := FirstIndexOf(t, '{');
      var close := LastIndexOf(t, '}');
      BlockIffIndices(t);
      if open.Some? && close.Some? && open.value < close.value then
        assert WidestBlock(t, open.value, close.value);
        Some(t[open.value..close.value + 1])
      else
        None
  }

  /** `extractJson(text)`: the trimmed text itself when it already starts with `{`
      and ends with `}`, otherwise the regular-expression match, and `None` (the
      source's `null`) when no `}` follows a `{`. Both branches yield the widest
      block, so the shortcut never changes the answer. */
  function ExtractJson(text: string): Option<string> {
    ExtractBlock(Trim(text))
  }

  /** A candidate exists exactly when some `{` precedes some `}` in the trimmed
      text. */
  lemma ExtractJsonIff(text: string)
    ensures var t := Trim(text);
      ExtractJson(text).Some? <==> exists i, j :: 0 <= i < j < |t| && t[i] == '{' && t[j] == '}'
  {
    var t := Trim(text);
    assert ExtractJson(text) == ExtractBlock(t);
  }

  /** The candidate is the widest block of the trimmed text: from its first `{` to
      its last `}`. */
  lemma ExtractJsonWidest(text: string)
    requires ExtractJson(text).Some?
    ensures var t := Trim(text);
      exists i, j :: WidestBlock(t, i, j) && ExtractJson(text).value == t[i..j + 1]
  {
    var t := Trim(text);
    var r := ExtractBlock(t);
    var i, j :| WidestBlock(t, i, j) && r.value == t[i..j + 1];
    assert WidestBlock(t, i, j) && ExtractJson(text).value == t[i..j + 1];
  }

  /** Text that, trimmed, already starts with `{` and ends with `}` is returned
      whole (trimmed). */
  lemma ExtractJsonWhole(text: string)
    requires var t := Trim(text); |t| > 0 && t[0] == '{' && t[|t| - 1] == '}'
    ensures ExtractJson(text) == Some(Trim(text))
  {
  }

  /** Text without any `{` has no candidate, whatever it otherwise contains. */
  lemma ExtractJsonNoBrace(text: string)
    requires forall k :: 0 <= k < |text| ==> text[k] != '{'
    ensures ExtractJson(text).None?
  {
    TrimKeepsAbsence(text, '{');
    assert ExtractJson(text) == ExtractBlock(Trim(text));
  }

  // ---------------------------------------------------------------------------
  // choices

  /** The suggestions used when the model supplies fewer than three. */
  const Fallbacks: seq<string> :=
    ["Озирнутися довкола", "Рухатися обережно вперед", "Прислухатися до звуків"]
  /** The phrase the relay uses once `Fallbacks` runs out. */
  const Pause: string := "Зробити обачну паузу"
  /** The number of choices the interface shows. */
  const ChoiceCount: nat := 3

  /** `fallbacks[k] || 'Зробити обачну паузу'`. */
  function FallbackFor(k: nat): string {
    if k < |Fallbacks| && Fallbacks[k] != "" then Fallbacks[k] else Pause
  }

  /** `Array.isArray(choices) ? choices : []`. */
  function ChoicesArray(choices: Option<Json>): (r: seq<Json>)
    ensures choices.Some? && choices.value.JArr? ==> r == choices.value.items
    ensures !(choices.Some? && choices.value.JArr?) ==> r == []
  {
    if choices.Some? && choices.value.JArr? then choices.value.items else []
  }

  /** What one entry contributes to the filtered list: its trimmed text if it is a
      string, nothing otherwise. */
  function KeepString(v: Json): (r: seq<string>)
    ensures |r| <= 1
    ensures forall k :: 0 <= k < |r| ==> IsTrimmed(r[k])
  {
    if v.JStr? then [Trim(v.s)] else []
  }

  /** `.filter(c => typeof c === 'string').map(c => c.trim())`. */
  function TrimmedStrings(items: seq<Json>): (r: seq<string>)
    ensures |r| <= |items|
    ensures forall k :: 0 <= k < |r| ==> IsTrimmed(r[k])
  {
    if |items| == 0 then []
    else KeepString(items[0]) + TrimmedStrings(items[1..])
  }

  /** Filtering and trimming work element by element, so relative order is kept:
      the result for a concatenation is the concatenation of the results. */
  lemma {:induction false} TrimmedStringsAppend(a: seq<Json>, b: seq<Json>)
    ensures TrimmedStrings(a + b) == TrimmedStrings(a) + TrimmedStrings(b)
  {
    if |a| == 0 {
      assert a + b == b;
    } else {
      assert (a + b)[0] == a[0];
      assert (a + b)[1..] == a[1..] + b;
      TrimmedStringsAppend(a[1..], b);
    }
  }

  /** Non-strings are dropped. */
  lemma TrimmedStringsDropsNonString(v: Json)
    requires !v.JStr?
    ensures TrimmedStrings([v]) == []
  {
  }

  /** A string survives, trimmed. */
  lemma TrimmedStringsKeepsString(s: string)
    ensures TrimmedStrings([JStr(s)]) == [Trim(s)]
  {
  }

  /** When every entry is a string, each survives in place, trimmed. */
  lemma {:induction false} TrimmedStringsAllStrings(items: seq<Json>)
    requires forall k :: 0 <= k < |items| ==> items[k].JStr?
    ensures |TrimmedStrings(items)| == |items|
    ensures forall k :: 0 <= k < |items| ==> TrimmedStrings(items)[k] == Trim(items[k].s)
  {
    if |items| > 0 {
      TrimmedStringsAllStrings(items[1..]);
    }
  }

  /** The `while (choices.length < 3) choices.push(...)` loop: each missing
      position `k` receives `fallbacks[k] || 'Зробити обачну паузу'`. */
  function PadChoices(s: seq<string>): (r: seq<string>)
    ensures |s| <= ChoiceCount ==> |r| == ChoiceCount
    ensures |s| >= ChoiceCount ==> r == s
    ensures |s| <= |r| && r[..|s|] == s
    ensures forall k :: |s| <= k < |r| ==> r[k] == FallbackFor(k)
    decreases ChoiceCount - |s|
  {
    if |s| >= ChoiceCount then s else PadChoices(s + [FallbackFor(|s|)])
  }

  /** Truncate to the first three, then pad: exactly three choices, the surviving
      strings first in their order, the fixed fallbacks after them. */
  function FitChoices(s: seq<string>): (r: seq<string>)
    ensures |r| == ChoiceCount
    ensures forall k :: 0 <= k < ChoiceCount && k < |s| ==> r[k] == s[k]
    ensures forall k :: |s| <= k < ChoiceCount ==> r[k] == Fallbacks[k]
  {
    PadChoices(if |s| > ChoiceCount then s[..ChoiceCount] else s)
  }

  /** The fourth fallback phrase is unreachable: it appears among the fitted choices
      only if the model itself supplied it among its first three strings. */
  lemma PauseNeverPadded(s: seq<string>)
    ensures Pause in FitChoices(s) ==> exists k :: 0 <= k < |s| && k < ChoiceCount && s[k] == Pause
  {
    var r := FitChoices(s);
    if Pause in r {
      var k :| 0 <= k < |r| && r[k] == Pause;
      if k >= |s| {
        assert false;
      }
    }
  }

  // ---------------------------------------------------------------------------
  // the normalised reply

  /** The body of a 200 answer: `{story, choices}`. */
  datatype Reply = Reply(story: string, choices: seq<string>)

  /** A reply already in the relay's output shape. */
  predicate IsNormal(rep: Reply) {
    && IsTrimmed(rep.story)
    && |rep.choices| == ChoiceCount
    && forall k :: 0 <= k < |rep.choices| ==> IsTrimmed(rep.choices[k])
  }

  /** Fitting trimmed strings yields trimmed strings: the fallbacks are trimmed. */
  lemma FitChoicesTrimmed(s: seq<string>)
    requires forall k :: 0 <= k < |s| ==> IsTrimmed(s[k])
    ensures forall k :: 0 <= k < ChoiceCount ==> IsTrimmed(FitChoices(s)[k])
  {
    var r := FitChoices(s);
    forall k | 0 <= k < ChoiceCount
      ensures IsTrimmed(r[k])
    {
      if k >= |s| {
        var f := Fallbacks[k];
        assert f == Fallbacks[0] || f == Fallbacks[1] || f == Fallbacks[2];
      }
    }
  }

  /** The parsed candidate with `story` type-checked (an empty string passes) and
      `choices` coerced; `None` when `story` is not a string. */
  function NormalizeParsed(parsed: Json): (r: Option<Reply>)
    ensures r.Some? <==> Get(parsed, "story").Some? && Get(parsed, "story").value.JStr?
    ensures r.Some? ==> IsNormal(r.value)
    ensures r.Some? ==> r.value.story == Trim(Get(parsed, "story").value.s)
  {
    var story := Get(parsed, "story");
    if story.Some? && story.value.JStr? then
      var choices := FitChoices(TrimmedStrings(ChoicesArray(Get(parsed, "choices"))));
      FitChoicesTrimmed(TrimmedStrings(ChoicesArray(Get(parsed, "choices"))));
      Some(Reply(Trim(story.value.s), choices))
    else
      None
  }

  /** The JSON the relay serialises, as the client parses it back. */
  function ReplyJson(rep: Reply): (r: Json)
    ensures Get(r, "story") == Some(JStr(rep.story))
    ensures Get(r, "choices") == Some(JArr(Strings(rep.choices)))
  {
    JObj(map["story" := JStr(rep.story), "choices" := JArr(Strings(rep.choices))])
  }

  /** The choices of a normalised reply, stated without reference to the
      implementation: the first three strings of a `choices` array, trimmed and in
      order, followed by fallbacks for the missing positions. */
  lemma NormalizedChoices(parsed: Json, strings: seq<string>)
    requires NormalizeParsed(parsed).Some?
    requires strings == TrimmedStrings(ChoicesArray(Get(parsed, "choices")))
    ensures var c := NormalizeParsed(parsed).value.choices;
      && (forall k :: 0 <= k < ChoiceCount && k < |strings| ==> c[k] == strings[k])
      && (forall k :: |strings| <= k < ChoiceCount ==> c[k] == Fallbacks[k])
  {
  }

  /** Without a `choices` array the reply carries the three fallbacks. */
  lemma MissingChoicesGiveFallbacks(parsed: Json)
    requires NormalizeParsed(parsed).Some?
    requires !(Get(parsed, "choices").Some? && Get(parsed, "choices").value.JArr?)
    ensures NormalizeParsed(parsed).value.choices == Fallbacks
  {
    var c := NormalizeParsed(parsed).value.choices;
    NormalizedChoices(parsed, []);
    SameChoices(c, Fallbacks);
  }

  /** Two lists of three choices that agree at every position are equal. */
  lemma SameChoices(a: seq<string>, b: seq<string>)
    requires |a| == ChoiceCount && |b| == ChoiceCount
    requires forall k :: 0 <= k < ChoiceCount ==> a[k] == b[k]
    ensures a == b
  {
  }

  /** Normalising a reply that is already normal gives it back unchanged. */
  lemma NormalizeFixesNormal(rep: Reply)
    requires IsNormal(rep)
    ensures NormalizeParsed(ReplyJson(rep)) == Some(rep)
  {
    var j := ReplyJson(rep);
    assert ChoicesArray(Get(j, "choices")) == Strings(rep.choices);
    TrimmedStringsOfTrimmed(rep.choices);
    FitChoicesFixesThree(rep.choices);
    TrimFixesTrimmed(rep.story);
  }

  /** Already-trimmed strings pass the filter-and-trim step unchanged. */
  lemma TrimmedStringsOfTrimmed(ss: seq<string>)
    requires forall k :: 0 <= k < |ss| ==> IsTrimmed(ss[k])
    ensures TrimmedStrings(Strings(ss)) == ss
  {
    var items := Strings(ss);
    TrimmedStringsAllStrings(items);
    var strings := TrimmedStrings(items);
    forall k | 0 <= k < |strings|
      ensures strings[k] == ss[k]
    {
      TrimFixesTrimmed(ss[k]);
    }
  }

  /** Three choices are neither truncated nor padded. */
  lemma FitChoicesFixesThree(s: seq<string>)
    requires |s| == ChoiceCount
    ensures FitChoices(s) == s
  {
  }

  /** Normalisation is idempotent across a serialisation round trip. */
  lemma NormalizeIdempotent(parsed: Json)
    requires NormalizeParsed(parsed).Some?
    ensures NormalizeParsed(ReplyJson(NormalizeParsed(parsed).value)) == NormalizeParsed(parsed)
  {
    NormalizeFixesNormal(NormalizeParsed(parsed).value);
  }
}

=== FILE: pipeline.dfy ===
/** How the client and the relay fit together: the client's request bodies reach
    the model as intended, and the relay's answers pass the client's checks. The
    wire is modelled as delivering the JSON value that was serialised. */
module Pipeline {
  import opened Wrappers
  import opened Text
  import opened JsonValue
  import opened Types
  import opened Prompt
  import opened Normalize
  import opened Relay
  import opened Service
  import opened Inputs
  import App

  /** The client's prompt always trims to something non-empty (it opens with a
      `---` line), so the relay uses it instead of building its own. */
  lemma ClientPromptNotBlank(h: seq<GameTurn>, action: string)
    ensures Trim(GenerateFullPrompt(h, action)) != ""
  {
    var p := GenerateFullPrompt(h, action);
    assert HistoryHeading[1] == '-';
    assert p[1] == p[..|HistoryHeading|][1];
    TrimNonEmpty(p, 1);
  }

  /** A continuation posted by the client with a non-empty action sends exactly the
      client's prompt and system instruction to the model; an empty action is
      answered 400 without a model call. */
  lemma ContinuationReachesModel(h: seq<GameTurn>, action: string, systemInstruction: string,
                                 model: ModelCall -> ModelOutcome, parse: string -> Option<Json>)
    ensures var x := Handle(Request("POST", Some(ContinueRequestBody(h, action, systemInstruction))), model, parse);
      && (action != "" ==> x.call == Some(ContinueCall(GenerateFullPrompt(h, action), Some(systemInstruction))))
      && (action == "" ==> x.call.None? && x.response == Response(400, Plain(ActionRequired)))
  {
    var body := ContinueRequestBody(h, action, systemInstruction);
    ContinueBodyDispatch(h, action, systemInstruction, model, parse);
    if action != "" {
      ClientPromptNotBlank(h, action);
      assert HasPromptOverride(body);
      assert ContinuationPrompt(body, action) == Some(GenerateFullPrompt(h, action));
      assert SystemInstructionOf(body) == Some(systemInstruction);
    }
  }

  /** The relay dispatches the client's continuation body to its continuation branch. */
  lemma ContinueBodyDispatch(h: seq<GameTurn>, action: string, systemInstruction: string,
                             model: ModelCall -> ModelOutcome, parse: string -> Option<Json>)
    ensures var body := ContinueRequestBody(h, action, systemInstruction);
      Handle(Request("POST", Some(body)), model, parse) == HandleContinue(body, model, parse)
  {
    var body := ContinueRequestBody(h, action, systemInstruction);
    var req := Request("POST", Some(body));
    assert Fields(req) == body;
    assert Get(body, "mode") != Some(JStr("seed")) by {
      assert "continue"[0] != "seed"[0];
    }
  }

  /** A scenario request from the client is never refused: its prompt is always a
      non-empty string, and it is what the model receives. */
  lemma ScenarioReachesModel(hint: Option<string>, model: ModelCall -> ModelOutcome, parse: string -> Option<Json>)
    ensures Handle(Request("POST", Some(SeedRequestBody(hint))), model, parse).call
         == Some(SeedCall(ScenarioPrompt(hint)))
  {
    var body := SeedRequestBody(hint);
    assert Fields(Request("POST", Some(body))) == body;
  }

  /** The client accepts every reply the relay produces, keeping its story and its
      three choices unchanged, all of them strings. */
  lemma RelayReplyAccepted(rep: Reply)
    requires IsNormal(rep)
    ensures CoerceReply(ReplyJson(rep)) == Success(GeminiResponse(rep.story, Strings(rep.choices)))
  {
  }

  /** End to end: a 200 reply of the relay is normal (`Relay.Handle`), and when the
      client parses the body back to that reply, the client resolves with it. */
  lemma ContinuationRoundTrip(r: Response, parse: string -> Option<Json>, body: string)
    requires r.status == 200 && r.body.JsonReply? && IsNormal(r.body.reply)
    requires parse(body) == Some(ReplyJson(r.body.reply))
    ensures ReceiveContinuation(Responded(true, Read(body)), parse)
        == Success(GeminiResponse(r.body.reply.story, Strings(r.body.reply.choices)))
  {
    RelayReplyAccepted(r.body.reply);
  }

  /** A relay error reaches the player verbatim: every non-200 answer of the relay
      carries a non-empty text, which the client raises as the error message. */
  lemma RelayErrorSurfaces(req: Request, model: ModelCall -> ModelOutcome, parse: string -> Option<Json>)
    requires Handle(req, model, parse).response.status != 200
    ensures var r := Handle(req, model, parse).response;
      && r.body.Plain? && r.body.text != ""
      && ReceiveContinuation(Responded(false, Read(r.body.text)), parse) == Failure(ErrorValue(r.body.text))
  {
  }

  /** The scenario the relay returns is already trimmed, so the client's second
      trim keeps it as sent. */
  lemma ScenarioRoundTrip(text: string)
    ensures ReceiveScenario(Responded(true, Read(Trim(text)))) == Success(Trim(text))
  {
    TrimIdempotent(text);
  }

  /** The settings screen asks for a random scenario exactly when its start
      condition is blank; otherwise the start condition, as typed, is quoted in the
      prompt. */
  lemma RandomizePromptChoice(f: SettingsForm)
    ensures ScenarioPrompt(RandomizeHint(f)) == RandomScenarioPrompt <==> Trim(f.startCondition) == ""
    ensures Trim(f.startCondition) != "" ==>
      var p := ScenarioPrompt(RandomizeHint(f));
      p[|HintPrefix|..|HintPrefix| + |f.startCondition|] == f.startCondition
  {
  }

  /** The relay trims choices but keeps those that become empty: a whitespace-only
      string among the first three entries of an all-string `choices` array is
      shown as an empty choice in its place. */
  lemma BlankChoiceKept(story: string, items: seq<Json>, k: nat)
    requires forall m :: 0 <= m < |items| ==> items[m].JStr?
    requires k < |items| && k < Normalize.ChoiceCount
    requires AllWhitespace(items[k].s)
    ensures var parsed := JObj(map["story" := JStr(story), "choices" := JArr(items)]);
      && NormalizeParsed(parsed).Some?
      && NormalizeParsed(parsed).value.choices[k] == ""
  {
    var parsed := JObj(map["story" := JStr(story), "choices" := JArr(items)]);
    assert Get(parsed, "story") == Some(JStr(story));
    assert ChoicesArray(Get(parsed, "choices")) == items;
    var strings := TrimmedStrings(items);
    TrimmedStringsAllStrings(items);
    assert strings[k] == Trim(items[k].s);
    TrimEmptyIff(items[k].s);
    NormalizedChoices(parsed, strings);
  }

  /** Such an empty choice, clicked, becomes the action `""`, which the relay then
      refuses with 400 without calling the model. */
  lemma EmptyChoiceIsRefused(s: App.AppState, i: nat,
                             model: ModelCall -> ModelOutcome, parse: string -> Option<Json>)
    requires s.screen == App.Game && !s.isLoading
    requires i < |s.choices| && s.choices[i] == JStr("")
    ensures App.Step(s, App.ClickChoice(i)).pending == Some(App.PendingTurn("", s.systemInstruction, s.history))
    ensures var x := Handle(Request("POST", Some(ContinueRequestBody(s.history, "", s.systemInstruction))), model, parse);
      x.call.None? && x.response == Response(400, Plain(ActionRequired))
  {
    App.ClickChoiceActs(s, i);
    ContinuationReachesModel(s.history, "", s.systemInstruction, model, parse);
  }

  /** What `fetch` delivers for a relay response: `ok` for a 2xx status, and the
      body as text, a JSON reply being serialised with `serialize`. */
  function Wire(resp: Response, serialize: Json -> string): (r: FetchOutcome)
    ensures r.Responded? && r.body.Read?
    ensures resp.status == 200 ==> r.ok
  {
    Responded(200 <= resp.status < 300,
              Read(if resp.body.Plain? then resp.body.text else serialize(ReplyJson(resp.body.reply))))
  }

  /** `fetch('/api/gemini-proxy', { method: 'POST', body })` answered by the relay. */
  function RelayFetch(model: ModelCall -> ModelOutcome, parse: string -> Option<Json>,
                      serialize: Json -> string): Json -> FetchOutcome {
    body => Wire(Handle(Request("POST", Some(body)), model, parse).response, serialize)
  }

  /** The client's reading of any continuation answer the relay can give: a 200
      reply is accepted as is, and an error text becomes the error message. */
  lemma ClientReadsRelay(x: Response, parse: string -> Option<Json>, serialize: Json -> string)
    requires forall j :: parse(serialize(j)) == Some(j)
    requires x.status in {200, 400, 405, 500, 502}
    requires x.status == 200 ==> x.body.JsonReply? && IsNormal(x.body.reply)
    requires x.status != 200 ==> x.body.Plain? && x.body.text != ""
    ensures var r := ReceiveContinuation(Wire(x, serialize), parse);
      && (x.status == 200 ==> r == Success(GeminiResponse(x.body.reply.story, Strings(x.body.reply.choices))))
      && (x.status != 200 ==> r == Failure(ErrorValue(x.body.text)))
  {
    if x.status == 200 {
      ContinuationRoundTrip(x, parse, serialize(ReplyJson(x.body.reply)));
    }
  }

  /** End to end, one turn: `getNextStorySegment` answered by the relay resolves
      with the relay's reply when it is 200, and otherwise rejects with the relay's
      error text, provided `JSON.parse` reads back what `JSON.stringify` wrote. */
  lemma ContinuationThroughRelay(h: seq<GameTurn>, action: string, systemInstruction: string,
                                 model: ModelCall -> ModelOutcome, parse: string -> Option<Json>,
                                 serialize: Json -> string)
    requires forall j :: parse(serialize(j)) == Some(j)
    ensures var x := Handle(Request("POST", Some(ContinueRequestBody(h, action, systemInstruction))), model, parse).response;
      var r := GetNextStorySegment(h, action, systemInstruction, RelayFetch(model, parse, serialize), parse);
      && (x.status == 200 ==> x.body.JsonReply? && r == Success(GeminiResponse(x.body.reply.story, Strings(x.body.reply.choices))))
      && (x.status != 200 ==> x.body.Plain? && r == Failure(ErrorValue(x.body.text)))
  {
    var body := ContinueRequestBody(h, action, systemInstruction);
    var x := Handle(Request("POST", Some(body)), model, parse).response;
    ContinuationAnswerShape(h, action, systemInstruction, model, parse);
    assert RelayFetch(model, parse, serialize)(body) == Wire(x, serialize);
    ClientReadsRelay(x, parse, serialize);
  }

  /** A 200 answer to the client's continuation is always a JSON reply. */
  lemma ContinuationAnswerShape(h: seq<GameTurn>, action: string, systemInstruction: string,
                                model: ModelCall -> ModelOutcome, parse: string -> Option<Json>)
    ensures var x := Handle(Request("POST", Some(ContinueRequestBody(h, action, systemInstruction))), model, parse).response;
      x.status == 200 ==> x.body.JsonReply?
  {
    ContinueBodyDispatch(h, action, systemInstruction, model, parse);
  }

  /** End to end, a new scenario: `generateInitialScenario` answered by the relay
      resolves with exactly the relay's text when it is 200, and otherwise rejects
      with the relay's error text. */
  lemma ScenarioThroughRelay(hint: Option<string>, model: ModelCall -> ModelOutcome,
                             parse: string -> Option<Json>, serialize: Json -> string)
    ensures var x := Handle(Request("POST", Some(SeedRequestBody(hint))), model, parse).response;
      var r := GenerateInitialScenario(hint, RelayFetch(model, parse, serialize));
      && (x.status == 200 ==> x.body.Plain? && r == Success(x.body.text))
      && (x.status != 200 ==> x.body.Plain? && r == Failure(ErrorValue(x.body.text)))
  {
    var body := SeedRequestBody(hint);
    var req := Request("POST", Some(body));
    var x := Handle(req, model, parse).response;
    assert Fields(req) == body;
    ScenarioReachesModel(hint, model, parse);
    var call := SeedCall(ScenarioPrompt(hint));
    SeedAnswer(req, model, parse);
    var fetched := RelayFetch(model, parse, serialize)(body);
    assert fetched == Wire(x, serialize);
    if x.status == 200 {
      TrimIdempotent(model(call).text.GetOr(""));
    }
  }
}

=== FILE: prompt.dfy ===
/** The continuation prompt: the client's `generateFullPrompt`
    (services/geminiService.ts) and the relay's inline fallback builder
    (api/gemini-proxy.ts). Both render the same template; they differ in where the
    turns come from (typed turns versus untyped JSON) and in the indentation left
    after the last line of the template literal. */
module Prompt {
  import opened Wrappers
  import opened Text
  import opened JsonValue
  import opened Types

  /** Stands in the history slot when there is no history to show. */
  const Placeholder: string := "Це початок пригоди."
  const HistoryHeading: string := "\n---\nІсторія до цього моменту:\n"
  const ActionHeading: string := "\n---\nПоточна дія гравця: "
  const Instruction: string :=
    "\n---\nПродовжуй історію. Опиши, що відбувається далі, і запропонуй три можливі варіанти дій для гравця.\n"
  const ActionLabel: string := "Минула дія: "
  const ResultLabel: string := "\nРезультат: "
  /** Turns are separated by a blank line. */
  const TurnSeparator: string := "\n\n"
  /** The indentation before the closing backtick in the client's template literal. */
  const ClientIndent: string := "  "
  /** The indentation before the closing backtick in the relay's template literal. */
  const ServerIndent: string := "              "

  /** One past turn as two lines: the action, then its result. */
  function RenderTurn(action: string, story: string): (r: string)
    ensures |r| > 0
  {
    ActionLabel + action + ResultLabel + story
  }

  /** The prompt template, with `historyText` in the history slot unless it is empty. */
  function Template(historyText: string, action: string, indent: string): (r: string)
    ensures |HistoryHeading| <= |r| && r[..|HistoryHeading|] == HistoryHeading
    ensures var tail := Instruction + indent;
      && |action| + |tail| <= |r|
      && r[|r| - |tail| - |action|..|r| - |tail|] == action
      && r[|r| - |tail|..] == tail
  {
    var slot := if |historyText| > 0 then historyText else Placeholder;
    SixParts(HistoryHeading, slot, ActionHeading, action, Instruction, indent);
    HistoryHeading + slot + ActionHeading + action + Instruction + indent
  }

  /** Where the first, fourth and last two parts of a six-part concatenation sit. */
  lemma SixParts(a: string, b: string, c: string, d: string, e: string, f: string)
    ensures var r := a + b + c + d + e + f;
      && |a| + |d| + |e + f| <= |r|
      && r[..|a|] == a
      && r[|r| - |e + f| - |d|..|r| - |e + f|] == d
      && r[|r| - |e + f|..] == e + f
  {
    var r := a + b + c + d + e + f;
    assert r == a + (b + c + d + e + f);
    assert r == (a + b + c) + d + (e + f);
  }

  // ---------------------------------------------------------------------------
  // Client builder (services/geminiService.ts)

  function ClientTurnTexts(h: seq<GameTurn>): (r: seq<string>)
    ensures |r| == |h|
  {
    seq(|h|, i requires 0 <= i < |h| => RenderTurn(h[i].action, h[i].story))
  }

  /** The history section: the turns rendered in history order, blank-line separated. */
  function ClientHistoryText(h: seq<GameTurn>): string {
    Join(ClientTurnTexts(h), TurnSeparator)
  }

  /** `generateFullPrompt(history, action)`: the action is interpolated verbatim and
      is the last thing before the fixed instruction. */
  function GenerateFullPrompt(h: seq<GameTurn>, action: string): (r: string)
    ensures |HistoryHeading| <= |r| && r[..|HistoryHeading|] == HistoryHeading
    ensures var tail := Instruction + ClientIndent;
      && |action| + |tail| <= |r|
      && r[|r| - |tail| - |action|..|r| - |tail|] == action
      && r[|r| - |tail|..] == tail
  {
    Template(ClientHistoryText(h), action, ClientIndent)
  }

  /** The placeholder sentence fills the history slot exactly when there are no turns. */
  lemma ClientHistoryEmptyIff(h: seq<GameTurn>)
    ensures ClientHistoryText(h) == "" <==> |h| == 0
  {
    if |h| > 0 {
      assert |ClientTurnTexts(h)[0]| > 0;
    }
  }

  /** With no history the prompt carries the placeholder sentence. */
  lemma EmptyHistoryPrompt(action: string)
    ensures GenerateFullPrompt([], action)
         == HistoryHeading + Placeholder + ActionHeading + action + Instruction + ClientIndent
  {
  }

  /** With history the slot holds the rendered turns, not the placeholder. */
  lemma NonEmptyHistoryPrompt(h: seq<GameTurn>, action: string)
    requires |h| > 0
    ensures GenerateFullPrompt(h, action)
         == HistoryHeading + ClientHistoryText(h) + ActionHeading + action + Instruction + ClientIndent
  {
    ClientHistoryEmptyIff(h);
  }

  /** A single turn renders alone, with no separator. */
  lemma ClientHistorySingle(t: GameTurn)
    ensures ClientHistoryText([t]) == RenderTurn(t.action, t.story)
  {
    assert ClientTurnTexts([t]) == [RenderTurn(t.action, t.story)];
  }

  /** Appending a turn to a non-empty history appends a blank line and that turn's
      rendering to the history section: turns appear in history order. */
  lemma ClientHistoryAppend(h: seq<GameTurn>, t: GameTurn)
    requires |h| > 0
    ensures ClientHistoryText(h + [t])
         == ClientHistoryText(h) + TurnSeparator + RenderTurn(t.action, t.story)
  {
    assert ClientTurnTexts(h + [t]) == ClientTurnTexts(h) + [RenderTurn(t.action, t.story)];
    JoinAppend(ClientTurnTexts(h), TurnSeparator, RenderTurn(t.action, t.story));
  }

  // ---------------------------------------------------------------------------
  // Relay builder (api/gemini-proxy.ts), over whatever JSON the request carried

  /** One turn of the relay's history: `Минула дія: ${turn?.action}\nРезультат: ${turn?.story}`,
      or `None` when either interpolation throws. */
  function ServerTurnText(turn: Json): (r: Option<string>)
    ensures r.Some? <==> ToJsString(Get(turn, "action")).Some? && ToJsString(Get(turn, "story")).Some?
  {
    var action := ToJsString(Get(turn, "action"));
    var story := ToJsString(Get(turn, "story"));
    if action.Some? && story.Some? then Some(RenderTurn(action.value, story.value)) else None
  }

  /** `history.map(...)`: every turn rendered, or `None` as soon as one throws. */
  function ServerTurnTexts(items: seq<Json>): (r: Option<seq<string>>)
    ensures r.Some? <==> forall i :: 0 <= i < |items| ==> ServerTurnText(items[i]).Some?
    ensures r.Some? ==> |r.value| == |items|
    ensures r.Some? ==> forall i :: 0 <= i < |items| ==> r.value[i] == ServerTurnText(items[i]).value
  {
    if forall i :: 0 <= i < |items| ==> ServerTurnText(items[i]).Some? then
      Some(seq(|items|, i requires 0 <= i < |items| => ServerTurnText(items[i]).value))
    else None
  }

  /** The history section the relay renders: empty for anything but an array, and
      `None` when rendering a turn throws. */
  function ServerHistoryText(history: Option<Json>): Option<string> {
    if history.Some? && history.value.JArr? then
      match ServerTurnTexts(history.value.items)
      case None => None
      case Some(texts) => Some(Join(texts, TurnSeparator))
    else Some("")
  }

  /** The relay's own prompt for `history` and `action`, or `None` when rendering
      the history throws. */
  function ServerPrompt(history: Option<Json>, action: string): (r: Option<string>)
    ensures r.None? <==> ServerHistoryText(history).None?
    ensures r.Some? ==> var tail := Instruction + ServerIndent;
      && |action| + |tail| <= |r.value|
      && r.value[|r.value| - |tail| - |action|..|r.value| - |tail|] == action
  {
    match ServerHistoryText(history)
    case None => None
    case Some(text) => Some(Template(text, action, ServerIndent))
  }

  /** A turn whose `action` or `story` cannot be converted to a string. */
  ghost predicate BadTurn(turn: Json) {
    || (Get(turn, "action").Some? && HasToStringKey(Get(turn, "action").value))
    || (Get(turn, "story").Some? && HasToStringKey(Get(turn, "story").value))
  }

  /** The relay's builder throws exactly when `history` is an array holding a turn
      whose `action` or `story` cannot be converted to a string. */
  lemma ServerPromptFailsIff(history: Option<Json>, action: string)
    ensures ServerPrompt(history, action).None? <==>
      history.Some? && history.value.JArr? &&
      exists i :: 0 <= i < |history.value.items| && BadTurn(history.value.items[i])
  {
    if history.Some? && history.value.JArr? {
      var items := history.value.items;
      forall i | 0 <= i < |items|
        ensures ServerTurnText(items[i]).None? <==> BadTurn(items[i])
      {
        var a := Get(items[i], "action");
        var st := Get(items[i], "story");
        if a.Some? { ValueToJsStringFailsIff(a.value); }
        if st.Some? { ValueToJsStringFailsIff(st.value); }
      }
    }
  }

  /** The relay falls back to the placeholder when `history` is not an array or is
      an empty one. */
  lemma ServerPlaceholderIff(history: Option<Json>)
    ensures ServerHistoryText(history) == Some("")
        <==> !(history.Some? && history.value.JArr? && |history.value.items| > 0)
  {
    if history.Some? && history.value.JArr? && |history.value.items| > 0 {
      var texts := ServerTurnTexts(history.value.items);
      if texts.Some? {
        assert |texts.value[0]| > 0;
      }
    }
  }

  /** For the JSON form of a typed history, the relay renders the same history
      section as the client. */
  lemma ServerHistoryMatchesClient(h: seq<GameTurn>)
    ensures ServerHistoryText(Some(JArr(HistoryJson(h)))) == Some(ClientHistoryText(h))
  {
    var items := HistoryJson(h);
    forall i | 0 <= i < |items|
      ensures ServerTurnText(items[i]) == Some(ClientTurnTexts(h)[i])
    {
      assert items[i] == TurnJson(h[i]);
    }
    assert ServerTurnTexts(items).value == ClientTurnTexts(h);
  }

  /** For an array history the two builders agree except for the indentation left
      after the last line. */
  lemma ServerPromptMatchesClient(h: seq<GameTurn>, action: string)
    ensures var c := GenerateFullPrompt(h, action);
      && |ClientIndent| <= |c|
      && ServerPrompt(Some(JArr(HistoryJson(h))), action) == Some(c[..|c| - |ClientIndent|] + ServerIndent)
  {
    ServerHistoryMatchesClient(h);
    var c := GenerateFullPrompt(h, action);
    var slot := if |ClientHistoryText(h)| > 0 then ClientHistoryText(h) else Placeholder;
    var body := HistoryHeading + slot + ActionHeading + action + Instruction;
    assert c == body + ClientIndent;
    assert c[..|c| - |ClientIndent|] == body;
  }
}

=== FILE: relay.dfy ===
/** The relay's request handler (api/gemini-proxy.ts): method and mode dispatch,
    input checks, the single model call, and the status code of every outcome. The
    model and `JSON.parse` are parameters; the handler reports the call it issued
    alongside the response. */
module Relay {
  import opened Wrappers
  import opened Text
  import opened JsonValue
  import opened Prompt
  import opened Normalize

  const MethodNotAllowed: string := "Method Not Allowed"
  const PromptRequired: string := "Bad Request: prompt is required for seed mode."
  const ActionRequired: string := "Bad Request: action is required for continue mode."
  const UnknownMode: string := "Bad Request: unknown mode."
  const NoJsonDetected: string := "ШІ повернув не-JSON відповідь."
  const JsonParseFailed: string := "Помилка парсингу JSON від ШІ."
  const StoryMissing: string := "JSON не містить коректного поля \"story\"."
  const ServerError: string := "Server Error"
  /** The `TypeError` reading `parsed.story` raises when the candidate parses to `null`. */
  const NullRead: string := "Cannot read properties of null (reading 'story')"
  /** The `TypeError` interpolating an object with its own `toString` property raises. */
  const ConversionFailed: string := "Cannot convert object to primitive value"

  /** An incoming request: the HTTP method and the parsed body (`None` when absent). */
  datatype Request = Request(httpMethod: string, body: Option<Json>)

  /** The one call the relay makes to the model: a seed call with the client's
      prompt, or a continuation call with the chosen prompt and the system
      instruction when it is a string. */
  datatype ModelCall =
    | SeedCall(contents: string)
    | ContinueCall(contents: string, systemInstruction: Option<string>)

  /** What the model call produced: `result.text` (`None` when undefined), or a
      thrown error with its message (empty when it has none). */
  datatype ModelOutcome = Answered(text: Option<string>) | Threw(message: string)

  datatype Body = Plain(text: string) | JsonReply(reply: Reply)

  datatype Response = Response(status: int, body: Body)

  /** The call the handler issued, if any, and the response it sent. */
  datatype Exchange = Exchange(call: Option<ModelCall>, response: Response)

  /** `request.body || {}`. */
  function Fields(req: Request): (r: Json)
    ensures req.body.Some? && Truthy(req.body.value) ==> r == req.body.value
    ensures !(req.body.Some? && Truthy(req.body.value)) ==> forall key :: Get(r, key).None?
  {
    if req.body.Some? && Truthy(req.body.value) then req.body.value else JObj(map[])
  }

  /** The `catch` block: status 500 with the error's message, or `'Server Error'`. */
  function InternalError(message: string): (r: Response)
    ensures r.status == 500 && r.body.Plain? && r.body.text != ""
    ensures message != "" ==> r.body == Plain(message)
    ensures message == "" ==> r.body == Plain(ServerError)
  {
    Response(500, Plain(if message != "" then message else ServerError))
  }

  /** `promptForServer` is a string whose trim is non-empty. */
  predicate HasPromptOverride(fields: Json) {
    var given := Get(fields, "promptForServer");
    given.Some? && given.value.JStr? && Trim(given.value.s) != ""
  }

  /** The prompt for a continuation: the client's `promptForServer` when it
      qualifies, else the relay's own, which is `None` when building it throws. */
  function ContinuationPrompt(fields: Json, action: string): Option<string> {
    if HasPromptOverride(fields) then Some(Get(fields, "promptForServer").value.s)
    else ServerPrompt(Get(fields, "history"), action)
  }

  /** A continuation request whose prompt cannot be built: a valid `action`, no
      qualifying `promptForServer`, and a history the relay fails to render. */
  predicate PromptFails(fields: Json) {
    var action := Get(fields, "action");
    IsNonEmptyString(action) && ContinuationPrompt(fields, action.value.s).None?
  }

  /** A POST continuation request whose prompt cannot be built. */
  predicate ContinuationPromptFails(req: Request) {
    && req.httpMethod == "POST"
    && Get(Fields(req), "mode") == Some(JStr("continue"))
    && PromptFails(Fields(req))
  }

  function SystemInstructionOf(fields: Json): Option<string> {
    var si := Get(fields, "systemInstruction");
    if si.Some? && si.value.JStr? then Some(si.value.s) else None
  }

  /** The answer to a continuation once the model has replied with `text`. */
  function ContinueAnswer(text: Option<string>, parse: string -> Option<Json>): (r: Response)
    ensures r.status in {200, 500, 502}
    ensures r.status != 200 ==> r.body.Plain? && r.body.text != ""
    ensures r.status == 200 ==> r.body.JsonReply? && IsNormal(r.body.reply)
  {
    CandidateAnswer(ExtractJson(Trim(text.GetOr(""))), parse)
  }

  /** The answer for the JSON candidate found in the model's text, if any. */
  function CandidateAnswer(candidate: Option<string>, parse: string -> Option<Json>): (r: Response)
    ensures r.status in {200, 500, 502}
    ensures r.status != 200 ==> r.body.Plain? && r.body.text != ""
    ensures r.status == 200 ==> r.body.JsonReply? && IsNormal(r.body.reply)
  {
    match candidate
    case None => Response(502, Plain(NoJsonDetected))
    case Some(c) =>
      match parse(c)
      case None => Response(502, Plain(JsonParseFailed))
      case Some(parsed) =>
        if parsed.JNull? then InternalError(NullRead)
        else match NormalizeParsed(parsed)
          case None => Response(502, Plain(StoryMissing))
          case Some(rep) => Response(200, JsonReply(rep))
  }

  /** The seed branch: a non-empty string `prompt` goes to the model, whose text
      comes back trimmed. */
  function HandleSeed(fields: Json, model: ModelCall -> ModelOutcome): (x: Exchange)
    ensures x.response.status != 200 ==> x.response.body.Plain? && x.response.body.text != ""
    ensures x.response.status in {200, 400, 500}
    ensures x.call.None? <==> x.response.status == 400
    ensures x.response.status == 400 <==> !IsNonEmptyString(Get(fields, "prompt"))
    ensures x.call.Some? ==> x.call.value == SeedCall(Get(fields, "prompt").value.s)
  {
    var prompt := Get(fields, "prompt");
    if !IsNonEmptyString(prompt) then
      Exchange(None, Response(400, Plain(PromptRequired)))
    else
      var call := SeedCall(prompt.value.s);
      match model(call)
      case Threw(message) => Exchange(Some(call), InternalError(message))
      case Answered(text) => Exchange(Some(call), Response(200, Plain(Trim(text.GetOr("")))))
  }

  /** The continuation branch: a non-empty string `action` leads to one model call
      with the chosen prompt, whose answer is then normalised. When building the
      prompt throws, the `catch` answers 500 before any call. */
  function HandleContinue(fields: Json, model: ModelCall -> ModelOutcome, parse: string -> Option<Json>): (x: Exchange)
    ensures x.response.status != 200 ==> x.response.body.Plain? && x.response.body.text != ""
    ensures x.response.status in {200, 400, 500, 502}
    ensures x.call.None? <==> x.response.status == 400 || PromptFails(fields)
    ensures x.response.status == 400 <==> !IsNonEmptyString(Get(fields, "action"))
    ensures x.response.status == 400 ==> x.response.body == Plain(ActionRequired)
    ensures PromptFails(fields) ==> x.response == InternalError(ConversionFailed)
    ensures x.call.Some? ==>
      x.call.value == ContinueCall(ContinuationPrompt(fields, Get(fields, "action").value.s).value, SystemInstructionOf(fields))
    ensures x.response.status == 200 ==> x.response.body.JsonReply? && IsNormal(x.response.body.reply)
  {
    var action := Get(fields, "action");
    if !IsNonEmptyString(action) then
      Exchange(None, Response(400, Plain(ActionRequired)))
    else
      match ContinuationPrompt(fields, action.value.s)
      case None => Exchange(None, InternalError(ConversionFailed))
      case Some(prompt) =>
        var call := ContinueCall(prompt, SystemInstructionOf(fields));
        match model(call)
        case Threw(message) => Exchange(Some(call), InternalError(message))
        case Answered(text) => Exchange(Some(call), ContinueAnswer(text, parse))
  }

  /** `handler(request, response)`: 405 for anything but POST, then dispatch on
      `mode`, and 400 for an unknown mode. */
  function Handle(req: Request, model: ModelCall -> ModelOutcome, parse: string -> Option<Json>): (x: Exchange)
    ensures x.response.status != 200 ==> x.response.body.Plain? && x.response.body.text != ""
    ensures x.response.status in {200, 400, 405, 500, 502}
    ensures x.response.status == 405 <==> req.httpMethod != "POST"
    ensures x.call.None? <==> x.response.status in {400, 405} || ContinuationPromptFails(req)
    ensures ContinuationPromptFails(req) ==> x.response == InternalError(ConversionFailed)
    ensures x.response.status == 200 && x.response.body.JsonReply? ==> IsNormal(x.response.body.reply)
    ensures x.call.Some? && model(x.call.value).Threw? ==> x.response == InternalError(model(x.call.value).message)
  {
    if req.httpMethod != "POST" then
      Exchange(None, Response(405, Plain(MethodNotAllowed)))
    else
      var fields := Fields(req);
      var mode := Get(fields, "mode");
      if mode == Some(JStr("seed")) then HandleSeed(fields, model)
      else if mode == Some(JStr("continue")) then HandleContinue(fields, model, parse)
      else Exchange(None, Response(400, Plain(UnknownMode)))
  }

  /** The 400 outcomes: a seed request without a non-empty string `prompt`, a
      continuation without a non-empty string `action`, or any other mode. */
  lemma BadRequestIff(req: Request, model: ModelCall -> ModelOutcome, parse: string -> Option<Json>)
    ensures var fields := Fields(req);
      var mode := Get(fields, "mode");
      (Handle(req, model, parse).response.status == 400) <==>
        (&& req.httpMethod == "POST"
         && (|| (mode == Some(JStr("seed")) && !IsNonEmptyString(Get(fields, "prompt")))
             || (mode == Some(JStr("continue")) && !IsNonEmptyString(Get(fields, "action")))
             || (mode != Some(JStr("seed")) && mode != Some(JStr("continue")))))
  {
  }

  /** A valid seed request sends the client's prompt to the model and answers 200
      with the trimmed text (empty when the model returned none). */
  lemma SeedAnswer(req: Request, model: ModelCall -> ModelOutcome, parse: string -> Option<Json>)
    requires req.httpMethod == "POST"
    requires Get(Fields(req), "mode") == Some(JStr("seed"))
    requires IsNonEmptyString(Get(Fields(req), "prompt"))
    ensures var x := Handle(req, model, parse);
      var call := SeedCall(Get(Fields(req), "prompt").value.s);
      && x.call == Some(call)
      && (model(call).Answered? ==> x.response == Response(200, Plain(Trim(model(call).text.GetOr("")))))
  {
  }

  /** A valid continuation sends `promptForServer` when it is a string with a
      non-empty trim, and otherwise the prompt built from `history`; when that
      build throws, no call is made and the answer is the `TypeError`'s 500. */
  lemma ContinuationPromptChoice(req: Request, model: ModelCall -> ModelOutcome, parse: string -> Option<Json>)
    requires req.httpMethod == "POST"
    requires Get(Fields(req), "mode") == Some(JStr("continue"))
    requires IsNonEmptyString(Get(Fields(req), "action"))
    ensures var x := Handle(req, model, parse);
      var given := Get(Fields(req), "promptForServer");
      var action := Get(Fields(req), "action").value.s;
      var built := ServerPrompt(Get(Fields(req), "history"), action);
      && (HasPromptOverride(Fields(req)) ==>
            x.call.Some? && x.call.value.ContinueCall? && x.call.value.contents == given.value.s)
      && (!HasPromptOverride(Fields(req)) && built.Some? ==>
            x.call.Some? && x.call.value.ContinueCall? && x.call.value.contents == built.value)
      && (!HasPromptOverride(Fields(req)) && built.None? ==>
            x.call.None? && x.response == InternalError(ConversionFailed))
  {
  }

  /** The relay fails to build a continuation prompt exactly when the request is a
      valid continuation without a qualifying `promptForServer` whose `history` is
      an array holding a turn with an `action` or `story` that cannot be converted
      to a string. */
  lemma ConversionFailureIff(req: Request)
    ensures var fields := Fields(req);
      var history := Get(fields, "history");
      ContinuationPromptFails(req) <==>
        && req.httpMethod == "POST"
        && Get(fields, "mode") == Some(JStr("continue"))
        && IsNonEmptyString(Get(fields, "action"))
        && !HasPromptOverride(fields)
        && history.Some? && history.value.JArr?
        && exists i :: 0 <= i < |history.value.items| && BadTurn(history.value.items[i])
  {
    var fields := Fields(req);
    var action := Get(fields, "action");
    if IsNonEmptyString(action) {
      ServerPromptFailsIff(Get(fields, "history"), action.value.s);
    }
  }

  /** A continuation the model answered gets 502 exactly when no JSON candidate is
      found, the candidate does not parse, or `story` is not a string (a candidate
      parsing to `null` fails the property read: 500); otherwise 200 with the
      normalised reply, whose story is the trimmed `story`. */
  lemma ContinueAnswerIff(candidate: Option<string>, parse: string -> Option<Json>)
    ensures var r := CandidateAnswer(candidate, parse);
      && (r.status == 502 <==>
            || candidate.None?
            || parse(candidate.value).None?
            || (parse(candidate.value).value != JNull && NormalizeParsed(parse(candidate.value).value).None?))
      && (r.status == 200 <==>
            && candidate.Some? && parse(candidate.value).Some?
            && parse(candidate.value).value != JNull
            && NormalizeParsed(parse(candidate.value).value).Some?)
      && (r.status == 200 ==> r.body == JsonReply(NormalizeParsed(parse(candidate.value).value).value))
  {
  }
}

=== FILE: service.dfy ===
/** The client's side of the relay protocol (services/geminiService.ts): the
    request bodies it posts, and how it turns the relay's HTTP answer into a
    `GeminiResponse`, a scenario string, or a thrown `Error`. `fetch` is a
    parameter mapping the posted body to what came back. */
module Service {
  import opened Wrappers
  import opened Text
  import opened JsonValue
  import opened Types
  import opened Prompt
  import Normalize

  /** The system instruction a game uses unless the player edits it. */
  const DefaultSystemInstruction: string :=
    "Ти — майстер гри у текстовій пригодницькій грі в жанрі темного фентезі. Твоє завдання — створювати захоплюючу історію, реагуючи на дії гравця. Завжди відповідай українською мовою. Твій стиль має бути описовим, атмосферним і трохи таємничим. Ніколи не ламай характер. Завжди надавай відповідь у форматі JSON, що відповідає наданій схемі. Опис ситуації має бути не більше 3-4 речень. Варіанти дій мають бути короткими та спонукати до дії. Не звертайся до гравця на \"ти\" або \"ви\" у варіантах дій, використовуй інфінітиви (напр. \"Піти далі\", а не \"Іди далі\")."

  const RequestFailed: string := "Не вдалося отримати відповідь від ШІ. Спробуйте ще раз."
  const BadJson: string := "Від ШІ прийшов некоректний JSON."
  const BadShape: string := "Некоректна структура відповіді ШІ."
  const ScenarioFailed: string := "Не вдалося згенерувати сценарій. Спробуйте ще раз."
  /** The client's only padding phrase. */
  const ClientPadding: string := "Зробити обачну паузу"

  // The two seed prompts have their first word split off so that `ScenarioPrompt`
  // can tell the two templates apart.
  const HintPrefix: string := "Згенеруй" + " стартову умову для текстової гри, базуючись на цьому: \""
  const HintSuffix: string :=
    "\". Відповідь має бути одним-двома реченнями, без жодних префіксів чи пояснень."
  const RandomScenarioPrompt: string :=
    "Придумай" + " випадкову, цікаву та коротку стартову умову (1-2 речення) для текстової гри в жанрі темного фентезі. Відповідь має бути без жодних префіксів чи пояснень."

  /** The body of a response as `res.text()` delivered it. */
  datatype BodyText = Read(text: string) | ReadFailed(message: string)

  /** What `fetch` delivered: a rejection (a network `TypeError`) or a response. */
  datatype FetchOutcome = NetworkError(message: string) | Responded(ok: bool, body: BodyText)

  /** The JSON body `getNextStorySegment` posts. */
  function ContinueRequestBody(h: seq<GameTurn>, action: string, systemInstruction: string): (r: Json)
    ensures Get(r, "mode") == Some(JStr("continue"))
    ensures Get(r, "action") == Some(JStr(action))
    ensures Get(r, "promptForServer") == Some(JStr(GenerateFullPrompt(h, action)))
    ensures Get(r, "systemInstruction") == Some(JStr(systemInstruction))
    ensures Get(r, "history") == Some(JArr(HistoryJson(h)))
  {
    JObj(map[
      "history" := JArr(HistoryJson(h)),
      "action" := JStr(action),
      "systemInstruction" := JStr(systemInstruction),
      "promptForServer" := JStr(GenerateFullPrompt(h, action)),
      "mode" := JStr("continue")])
  }

  /** The error a non-ok response raises: the body text, or `fallback` when the
      body is empty or unreadable. */
  function NotOkError(body: BodyText, fallback: string): (r: Thrown)
    ensures r.ErrorValue? && r.message != "" <== fallback != ""
    ensures body.Read? && body.text != "" ==> r == ErrorValue(body.text)
    ensures !(body.Read? && body.text != "") ==> r == ErrorValue(fallback)
  {
    ErrorValue(if body.Read? && body.text != "" then body.text else fallback)
  }

  /** Pads with the single client phrase up to three entries. */
  function PadWithPause(cs: seq<Json>): (r: seq<Json>)
    ensures |cs| <= Normalize.ChoiceCount ==> |r| == Normalize.ChoiceCount
    ensures |cs| <= |r| && r[..|cs|] == cs
    ensures forall k :: |cs| <= k < |r| ==> r[k] == JStr(ClientPadding)
    decreases Normalize.ChoiceCount - |cs|
  {
    if |cs| >= Normalize.ChoiceCount then cs else PadWithPause(cs + [JStr(ClientPadding)])
  }

  /** The client's length fix: a three-entry list is kept as it is; any other is
      cut to its first three entries and padded. Entries are not type-checked. */
  function FitToThree(cs: seq<Json>): (r: seq<Json>)
    ensures |r| == Normalize.ChoiceCount
    ensures forall k :: 0 <= k < Normalize.ChoiceCount && k < |cs| ==> r[k] == cs[k]
    ensures forall k :: |cs| <= k < Normalize.ChoiceCount ==> r[k] == JStr(ClientPadding)
  {
    if |cs| == Normalize.ChoiceCount then cs
    else PadWithPause(if |cs| > Normalize.ChoiceCount then cs[..Normalize.ChoiceCount] else cs)
  }

  /** The structure check and coercion applied to the parsed body: `story` must be
      a string (an empty one passes, and it is not trimmed) and `choices` an array. */
  function CoerceReply(parsed: Json): (r: Result<GeminiResponse, Thrown>)
    ensures r.Success? <==>
      && Get(parsed, "story").Some? && Get(parsed, "story").value.JStr?
      && Get(parsed, "choices").Some? && Get(parsed, "choices").value.JArr?
    ensures r.Failure? ==> r.error == ErrorValue(BadShape)
    ensures r.Success? ==> r.value.story == Get(parsed, "story").value.s
    ensures r.Success? ==> r.value.choices == FitToThree(Get(parsed, "choices").value.items)
  {
    var story := Get(parsed, "story");
    var choices := Get(parsed, "choices");
    if !Truthy(parsed) || !(story.Some? && story.value.JStr?) || !(choices.Some? && choices.value.JArr?) then
      Failure(ErrorValue(BadShape))
    else
      Success(GeminiResponse(story.value.s, FitToThree(choices.value.items)))
  }

  /** What `getNextStorySegment` resolves or rejects with, given what came back. */
  function ReceiveContinuation(fetched: FetchOutcome, parse: string -> Option<Json>): (r: Result<GeminiResponse, Thrown>)
    ensures r.Failure? ==> r.error.ErrorValue?
    ensures fetched.Responded? && !fetched.ok ==> r == Failure(NotOkError(fetched.body, RequestFailed))
    ensures fetched.Responded? && fetched.ok && fetched.body.Read? ==>
      r == (if parse(fetched.body.text).None? then Failure(ErrorValue(BadJson))
            else CoerceReply(parse(fetched.body.text).value))
    ensures r.Success? ==> |r.value.choices| == Normalize.ChoiceCount
  {
    match fetched
    case NetworkError(message) => Failure(ErrorValue(message))
    case Responded(ok, body) =>
      if !ok then Failure(NotOkError(body, RequestFailed))
      else match body
        case ReadFailed(message) => Failure(ErrorValue(message))
        case Read(text) =>
          match parse(text)
          case None => Failure(ErrorValue(BadJson))
          case Some(parsed) => CoerceReply(parsed)
  }

  /** `getNextStorySegment(history, action, systemInstruction)`. */
  function GetNextStorySegment(h: seq<GameTurn>, action: string, systemInstruction: string,
                               fetch: Json -> FetchOutcome, parse: string -> Option<Json>): (r: Result<GeminiResponse, Thrown>)
    ensures r.Success? ==> |r.value.choices| == Normalize.ChoiceCount
    ensures r.Failure? ==> r.error.ErrorValue?
  {
    ReceiveContinuation(fetch(ContinueRequestBody(h, action, systemInstruction)), parse)
  }

  /** The prompt `generateInitialScenario` sends: a truthy hint is quoted inside
      the hint template; an absent or empty hint selects the fixed random one. */
  function ScenarioPrompt(hint: Option<string>): (r: string)
    ensures hint.Some? && hint.value != "" ==>
      && |HintPrefix| + |hint.value| <= |r|
      && r[..|HintPrefix|] == HintPrefix
      && r[|HintPrefix|..|HintPrefix| + |hint.value|] == hint.value
      && r[|HintPrefix| + |hint.value|..] == HintSuffix
    ensures r == RandomScenarioPrompt <==> !(hint.Some? && hint.value != "")
    ensures r != ""
  {
    if hint.Some? && hint.value != "" then
      var r := HintPrefix + hint.value + HintSuffix;
      assert r[0] == HintPrefix[0] == "Згенеруй"[0] != "Придумай"[0] == RandomScenarioPrompt[0];
      assert r[..|HintPrefix|] == HintPrefix;
      assert r[|HintPrefix|..|HintPrefix| + |hint.value|] == hint.value;
      assert r[|HintPrefix| + |hint.value|..] == HintSuffix;
      r
    else RandomScenarioPrompt
  }

  /** The JSON body `generateInitialScenario` posts. */
  function SeedRequestBody(hint: Option<string>): (r: Json)
    ensures Get(r, "mode") == Some(JStr("seed"))
    ensures Get(r, "prompt") == Some(JStr(ScenarioPrompt(hint)))
  {
    JObj(map["prompt" := JStr(ScenarioPrompt(hint)), "mode" := JStr("seed")])
  }

  /** What `generateInitialScenario` resolves or rejects with, given what came
      back: the trimmed body on success. */
  function ReceiveScenario(fetched: FetchOutcome): (r: Result<string, Thrown>)
    ensures r.Success? ==> IsTrimmed(r.value)
    ensures r.Success? <==> fetched.Responded? && fetched.ok && fetched.body.Read?
    ensures r.Success? ==> r.value == Trim(fetched.body.text)
    ensures fetched.Responded? && !fetched.ok ==> r == Failure(NotOkError(fetched.body, ScenarioFailed))
  {
    match fetched
    case NetworkError(message) => Failure(ErrorValue(message))
    case Responded(ok, body) =>
      if !ok then Failure(NotOkError(body, ScenarioFailed))
      else match body
        case ReadFailed(message) => Failure(ErrorValue(message))
        case Read(text) => Success(Trim(text))
  }

  /** `generateInitialScenario(userPrompt)`. */
  function GenerateInitialScenario(hint: Option<string>, fetch: Json -> FetchOutcome): (r: Result<string, Thrown>)
    ensures r.Success? ==> IsTrimmed(r.value)
    ensures r.Failure? ==> r.error.ErrorValue?
  {
    ReceiveScenario(fetch(SeedRequestBody(hint)))
  }

  /** A three-entry list passes untouched; any other length keeps its first entries
      in order and is padded to three with the client phrase. */
  lemma FitToThreeSpec(cs: seq<Json>)
    ensures |cs| == Normalize.ChoiceCount ==> FitToThree(cs) == cs
    ensures |cs| > Normalize.ChoiceCount ==> FitToThree(cs) == cs[..Normalize.ChoiceCount]
    ensures |cs| < Normalize.ChoiceCount ==> FitToThree(cs) == cs + seq(Normalize.ChoiceCount - |cs|, _ => JStr(ClientPadding))
  {
  }
}

=== FILE: text.dfy ===
/** Character-level text helpers shared by the relay and the client:
    ECMAScript's `String.prototype.trim` and `Array.prototype.join`. */
module Text {

  /** The code points `trim` strips: ECMAScript's WhiteSpace and LineTerminator
      productions (tab, line feed, vertical tab, form feed, carriage return, space,
      no-break space, the Zs space separators, line and paragraph separators and the
      byte-order mark). */
  predicate IsWhitespace(c: char) {
    || c == '\t' || c == '\n' || c == '\U{000B}' || c == '\U{000C}' || c == '\r'
    || c == ' ' || c == '\U{00A0}' || c == '\U{1680}'
    || ('\U{2000}' <= c <= '\U{200A}')
    || c == '\U{2028}' || c == '\U{2029}' || c == '\U{202F}' || c == '\U{205F}'
    || c == '\U{3000}' || c == '\U{FEFF}'
  }

  predicate AllWhitespace(s: string) {
    forall k :: 0 <= k < |s| ==> IsWhitespace(s[k])
  }

  /** Neither end of `s` is whitespace: the fixed points of `Trim`. */
  predicate IsTrimmed(s: string) {
    |s| == 0 || (!IsWhitespace(s[0]) && !IsWhitespace(s[|s| - 1]))
  }

  /** Drops leading whitespace; the result is the suffix of `s` that starts at its
      first non-whitespace character. */
  function TrimStart(s: string): (r: string)
    ensures |r| <= |s| && r == s[|s| - |r|..]
    ensures AllWhitespace(s[..|s| - |r|])
    ensures |r| > 0 ==> !IsWhitespace(r[0])
  {
    if |s| > 0 && IsWhitespace(s[0]) then TrimStart(s[1..]) else s
  }

  /** Drops trailing whitespace; the result is the prefix of `s` that ends at its
      last non-whitespace character. */
  function TrimEnd(s: string): (r: string)
    ensures |r| <= |s| && r == s[..|r|]
    ensures AllWhitespace(s[|r|..])
    ensures |r| > 0 ==> !IsWhitespace(r[|r| - 1])
  {
    if |s| > 0 && IsWhitespace(s[|s| - 1]) then TrimEnd(s[..|s| - 1]) else s
  }

  /** JavaScript's `s.trim()`. */
  function Trim(s: string): (r: string)
    ensures IsTrimmed(r)
    ensures |r| <= |s|
  {
    TrimEnd(TrimStart(s))
  }

  /** `Trim` removes whitespace only, and only at the two ends: the result is the
      slice of `s` between a whitespace prefix and a whitespace suffix. */
  lemma TrimIsSlice(s: string)
    ensures var i := |s| - |TrimStart(s)|;
      && i + |Trim(s)| <= |s|
      && Trim(s) == s[i..i + |Trim(s)|]
      && AllWhitespace(s[..i])
      && AllWhitespace(s[i + |Trim(s)|..])
  {
    var t := TrimStart(s);
    var i := |s| - |t|;
    var r := TrimEnd(t);
    assert t[|r|..] == s[i + |r|..];
  }

  /** `Trim` yields the empty string exactly for all-whitespace input (the JavaScript
      idiom `!s.trim()`). */
  lemma TrimEmptyIff(s: string)
    ensures Trim(s) == "" <==> AllWhitespace(s)
  {
    TrimIsSlice(s);
    var i := |s| - |TrimStart(s)|;
    if Trim(s) == "" {
      forall k | 0 <= k < |s|
        ensures IsWhitespace(s[k])
      {
        assert s[k] == s[..i][k];
      }
    }
  }

  /** Already-trimmed text is left alone. */
  lemma TrimFixesTrimmed(s: string)
    requires IsTrimmed(s)
    ensures Trim(s) == s
  {
  }

  /** A string with a non-whitespace character somewhere trims to a non-empty one. */
  lemma {:induction false} TrimNonEmpty(s: string, k: nat)
    requires k < |s| && !IsWhitespace(s[k])
    ensures Trim(s) != ""
  {
    TrimEmptyIff(s);
    assert !AllWhitespace(s);
  }

  /** `Trim` introduces no character: one absent from `s` is absent from its trim. */
  lemma TrimKeepsAbsence(s: string, c: char)
    requires forall k :: 0 <= k < |s| ==> s[k] != c
    ensures forall k :: 0 <= k < |Trim(s)| ==> Trim(s)[k] != c
  {
    TrimIsSlice(s);
    var t := Trim(s);
    var i := |s| - |TrimStart(s)|;
    assert t == s[i..i + |t|];
    forall k | 0 <= k < |t|
      ensures t[k] != c
    {
      assert t[k] == s[i + k];
    }
  }

  /** Trimming twice is trimming once. */
  lemma TrimIdempotent(s: string)
    ensures Trim(Trim(s)) == Trim(s)
  {
    TrimFixesTrimmed(Trim(s));
  }

  /** JavaScript's `parts.join(sep)`. */
  function Join(parts: seq<string>, sep: string): (r: string)
    ensures |parts| == 0 ==> r == ""
    ensures |parts| > 0 ==> |parts[0]| <= |r| && r[..|parts[0]|] == parts[0]
    ensures |parts| == 1 ==> r == parts[0]
  {
    if |parts| == 0 then ""
    else if |parts| == 1 then parts[0]
    else parts[0] + sep + Join(parts[1..], sep)
  }

  /** Joining one more part extends the joined text by the separator and that part. */
  lemma {:induction false} JoinAppend(parts: seq<string>, sep: string, last: string)
    requires |parts| > 0
    ensures Join(parts + [last], sep) == Join(parts, sep) + sep + last
  {
    if |parts| == 1 {
      assert (parts + [last])[1..] == [last];
    } else {
      assert (parts + [last])[1..] == parts[1..] + [last];
      JoinAppend(parts[1..], sep, last);
    }
  }
}

=== FILE: types.dfy ===
/** The records the client and the relay exchange (types.ts). */
module Types {
  import opened Wrappers
  import opened JsonValue

  /** One completed exchange: the action the player took and the story segment it
      produced. `id` is the turn's position in the history. */
  datatype GameTurn = GameTurn(id: int, action: string, story: string)

  /** The reply the client hands to the application. The declared element type of
      `choices` is `string`, but the client never checks it, so the model keeps the
      parsed JSON values. */
  datatype GeminiResponse = GeminiResponse(story: string, choices: seq<Json>)

  /** The two settings a game starts from. */
  datatype GameConfig = GameConfig(startCondition: string, systemInstruction: string)

  /** What the client throws or rejects with: an `Error` carrying a message, or
      some other value. */
  datatype Thrown = ErrorValue(message: string) | OtherValue

  /** `JSON.stringify` of a turn, as the relay reads it back. */
  function TurnJson(t: GameTurn): (r: Json)
    ensures Get(r, "action") == Some(JStr(t.action))
    ensures Get(r, "story") == Some(JStr(t.story))
  {
    JObj(map["id" := JNum(t.id), "action" := JStr(t.action), "story" := JStr(t.story)])
  }

  function HistoryJson(h: seq<GameTurn>): (r: seq<Json>)
    ensures |r| == |h|
    ensures forall i :: 0 <= i < |h| ==> r[i] == TurnJson(h[i])
  {
    seq(|h|, i requires 0 <= i < |h| => TurnJson(h[i]))
  }

  /** Every turn's id is its position: the history invariant the application keeps. */
  predicate IdsArePositions(h: seq<GameTurn>) {
    forall i :: 0 <= i < |h| ==> h[i].id == i
  }
}

=== FILE: wrappers.dfy ===
/** Option and Result, the two failure-carrying shapes the model uses in place of
    JavaScript's `undefined`/`null` and of thrown exceptions. */
module Wrappers {

  /** `None` stands for an absent or `undefined` value. */
  datatype Option<+T> = None | Some(value: T) {

    /** The wrapped value, or `default` when there is none. */
    function GetOr(default: T): T {
      match this
      case Some(v) => v
      case None => default
    }
  }

  /** `Failure` stands for a rejected promise or a thrown error. */
  datatype Result<+R, +E> = Success(value: R) | Failure(error: E)
}
